=== FILE: README.md ===
# Job board services and code generator — a Dafny model

This project models the service layer of a job-tracking board and its
code generator:

- **CRUD** (`src/api/services/CRUD.ts`): the generic repository wrapper used by
  every entity service. It covers `create` with an optional identifier
  uniqueness check, `find`, `findOne`, `update` with a truthy-field merge,
  `delete` and `count`.
- **JobService** (`src/api/services/JobService.ts`): jobs live in lanes, where
  a lane is a (board, board column) pair. They are ordered inside a lane by a
  numeric `sortOrder`.
  - `create` appends a job to its lane at `(count + 1) * 1000`.
  - `alignSortOrder` renumbers a lane to `1000, 2000, …`.
  - `move` places a job by midpoint insertion between the previous job and
    the next job above it. When no integer is left between the two, it
    realigns the lane once and retries.
- **NoteService** (`src/api/services/NoteService.ts`): a note must agree with
  its job on owner and board. Notes are listed per job or per board, newest
  first.
- **Generator** (`commands/lib/Generator.ts`): the name helpers `camelCase`,
  `pascalCase` and `pluralizeLastWord`, and the constructor's path defaults.
  It also covers the `readEntityFields` line parser, which reads an entity
  class into a field table, and `routeValidation`, which turns that table
  into Joi schema text.

The store is an immutable `Collection`: a sequence of rows in insertion
order, each an id paired with a record. A record maps field names to
JavaScript values, and truthiness is modelled explicitly.

Every service is a pure function. Most return a `Result`; `alignSortOrder`
and `move`, which can fail after some of their writes are saved, return the
store they leave together with their outcome. The errors are:

- the service's `ErrorHandler(status, message)`;
- the validation failure thrown after class-validator;
- a `TypeError` where the source dereferences a missing document.

Validation is a parameter `validate: Record -> bool`. The `pluralize`
library is a parameter `string -> string`. The entity file's text is a
parameter of `readEntityFields`.

`move` takes the neighbour-search scope as a parameter:

- `Global` is the code as written: the `$gt` query has no board or column
  condition.
- `LaneScope(board, column)` restricts the search to the destination lane.
  This is the search under which the comments at JobService.ts:54-55 and
  :222 hold: realigning that lane to `(index + 1) * 1000` always leaves room
  for the retry (see Findings).

Because the search spans every lane, where a move to the top of a lane
lands depends on the other lanes. It lands on `m / 2` (floor), where `m`
is the least positive sortOrder held by any other job in any lane
(`JobScenarios.TopMoveHalvesLeast`). So it lands on 500 when that least
value is 1000, or when no other job holds a positive one
(`JobScenarios.MoveIntoEmptyLane`), and on 250 when it is 500
(`JobScenarios.EmptyLaneAfterTopMove`).

## Model

| member | source | states |
|---|---|---|
| Crud.Create | src/api/services/CRUD.ts:46-62 | A record failing validation is rejected first. With an identifier, an equal stored value gives 400 "The <Entity> already exists" and nothing is saved. Success holds iff the record validates and its identifier value is new, and the store then gains exactly that record under a fresh id. |
| Crud.Count | src/api/services/CRUD.ts:64-66 | The count equals the number of stored rows matching the query. |
| Crud.Find | src/api/services/CRUD.ts:68-74 | Without `take`, or with a `take` of 0 (no limit for a MongoDB cursor), returns exactly the matching rows, and none is an error. With a positive `take`, returns at most that many rows, and a shorter listing lists every match. With an order, the listing is sorted, and every match left out sorts after every row returned. |
| Crud.FindFirst | src/api/services/CRUD.ts:68-74 | With an order, the first row listed is a match that may be listed ahead of every matching row, including the rows `take` cut off. |
| Crud.FindOne | src/api/services/CRUD.ts:76-84 | Succeeds iff the id is stored and returns that row; otherwise 404 "Not found". |
| Crud.Merge | src/api/services/CRUD.ts:91-95 | A key takes the patch's value exactly when that value is truthy. Every other field, including one patched with 0, '' or null, keeps its old value. |
| Crud.MergeIdempotent | src/api/services/CRUD.ts:91-95 | Applying the same patch twice equals applying it once. |
| Crud.Update | src/api/services/CRUD.ts:86-104 | 404 iff the id is missing. For a stored id, the update succeeds iff the truthy merge of the patch into the stored record passes validation, and fails with the validation error otherwise. On success, only the target row changes: it becomes the truthy merge of the patch, and ids, order and validity are kept. |
| Crud.Delete | src/api/services/CRUD.ts:106-108 | The rows kept are exactly the old rows with a different id, and the id is gone. |
| Crud.DeleteThenFindOne | src/api/services/CRUD.ts:76-108 | After `delete(id)`, `findOne(id)` fails with 404. |
| JobService.LaneCount | src/api/services/JobService.ts:86-89 | Counting with the `{board, boardColumn}` query gives the number of jobs in the lane. |
| JobService.CreateJob | src/api/services/JobService.ts:77-96 | A missing board is a TypeError. An owner differing from the board's owner gives 500 "Job owner cannot be different to board owner". An owner that is not an ObjectID is a TypeError, since `.equals` is called on it. Once the owners agree, a job at the end of its lane that fails validation gives the validation error. The save succeeds iff the board exists, the owners agree and the job placed at the end of its lane validates. The 404 or 500 of the population after the save is left out. On success the job is stored with sortOrder 1000 × (jobs in its lane + 1), and the returned job has no `owner`. |
| JobService.CreateGrowsOwnLane | src/api/services/JobService.ts:86-90 | A created job adds one to its own lane's size and leaves every other lane's size unchanged. |
| JobService.AlignFrom | src/api/services/JobService.ts:67-74 | The loop from rank k runs to the end iff every write it makes, the j-th listed job with sortOrder 1000 × (k + j + 1), passes validation; it then has renumbered every listed job and left every other job as it was. Otherwise it stops at the first rejected write, with the writes before it saved and the rest of the store unchanged. It writes nothing when every job already holds its value. |
| JobService.AlignHead | src/api/services/JobService.ts:67-73 | One pass fails iff the head job needs a write and the head renumbered to 1000 × (k + 1) fails validation; it then writes nothing. Otherwise it writes that value into the head job, leaving every other job and every id as it was; a head already holding the value leaves the store unchanged. |
| JobService.AlignSortOrder | src/api/services/JobService.ts:56-75 | Runs to the end iff every renumbered lane job it writes validates; then each lane job of rank j in ascending sortOrder gets 1000 × (j + 1), and jobs outside the lane and all ids are untouched. Otherwise it stops at the first rank whose write is rejected, and the store it leaves has the lane jobs before that rank renumbered and everything else unchanged. An already aligned lane is returned unchanged. |
| JobService.Renumbered | src/api/services/JobService.ts:67-73 | The reference renumbering: position j carries the same job with sortOrder 1000 × (j + 1). |
| JobService.AlignAligns | src/api/services/JobService.ts:56-75 | After alignment, the lane read back in ascending order is the old lane renumbered, so relative order is preserved, and the lane is aligned. |
| JobService.AlignIdempotent | src/api/services/JobService.ts:67-73 | A second alignment right after the first changes nothing. |
| JobService.LowerBound | src/api/services/JobService.ts:205-206 | `min` is 0 without a previous job. An unknown previous job gives 404 "Not found". Otherwise `min` is the previous job's numeric sortOrder, with 0 for a missing or zero one. |
| JobService.Stuck | src/api/services/JobService.ts:221-223 | The bounds are adjacent integers exactly when the floor midpoint meets `min` or `max`, the test that triggers a realignment. |
| JobService.NextJob | src/api/services/JobService.ts:207-217 | The neighbour found is a stored job, other than the one moved, whose sortOrder exceeds `min`, and no such job has a smaller sortOrder. None is found iff no such job exists. |
| JobService.NextSlot | src/api/services/JobService.ts:220 | `ceil((min + 1) / 1000) * 1000` is a multiple of 1000 in (min, min + 1000]. |
| JobService.UpperBound | src/api/services/JobService.ts:218-220 | `max` exceeds `min`. It equals the smallest sortOrder above `min` among the candidate jobs, or the next multiple of 1000 when there is none. |
| JobService.Midpoint | src/api/services/JobService.ts:221-223 | `floor((min + max) / 2)` lies in [min, max). It equals `min` iff max − min = 1, which is the exhaustion test. |
| JobService.TryPlace | src/api/services/JobService.ts:204-235 | One attempt either exhausts, exactly when max − min = 1, or fails with 404 or a validation error, or lands. When the bounds leave room and the job is stored, it lands iff the job merged with `{sortOrder: midpoint, boardColumn}` validates, and fails with the validation error otherwise. When it lands, only the moved job changes: it gets the midpoint as sortOrder and the new board column, and the returned job has no `owner`. The population errors after the save are left out, as for PlaceAt. |
| JobService.PlaceAt | src/api/services/JobService.ts:231-234 | The update fails with 404 exactly when the moved job is missing, and succeeds exactly when the job is stored and its merge with `{sortOrder, boardColumn}` validates. On success the job is in the new column at the new sortOrder (a 0 is not written), no other job changes, and the returned record is the stored one without `owner`. Success means the save. The population in `JobService.update`, which can throw 404 or 500 after it, is left out. |
| JobService.Move | src/api/services/JobService.ts:197-236 | An unknown previous job gives 404 and no write. Success holds iff the attempt on the store, or after an exhausted first attempt the retry on the fully realigned store, has room and a valid write; it lands the job at the midpoint. The validation error is raised iff that write is rejected or the realignment stops on a rejected write. 500 "Sort order alignment failed" is raised iff the attempt is exhausted and either this is the retry or the realigned lane is exhausted again. On any error the store left is the input, or the realigned store, complete or not, once a realignment has run. Success means the landing write is saved. The 404 or 500 thrown after it when the destination column or company is not stored is left out. |
| JobService.RetryAfterAlign | src/api/services/JobService.ts:228-229 | The realignment is saved whatever follows. A realignment stopped by a rejected write ends the move with the validation error. After a complete one, the retry fails with 500 "Sort order alignment failed" exactly when the realigned lane is still exhausted, fails with the validation error exactly when its write is rejected, and otherwise lands on the realigned store, leaving out the population errors after the save. |
| JobService.AlignKeepsIds | src/api/services/JobService.ts:228-229 | Realignment, complete or stopped, keeps the set of stored ids, so the retry still finds the moved job. |
| JobService.LandedAfterPrev | src/api/services/JobService.ts:221-234 | A landed job is in the new column with sortOrder above `min`. No other candidate job lies in (min, new], and the previous job keeps `min`. |
| JobService.RealignLeavesRoom | src/api/services/JobService.ts:222-229 | When every numbered job is in the lane being realigned, the retry is never exhausted, so `move` cannot fail with 500 "Sort order alignment failed". |
| JobService.SpacedRoom | src/api/services/JobService.ts:218-223 | When every candidate sortOrder and `min` are positive multiples of 1000, the bounds leave room for a midpoint. |
| JobService.LaneSearchLeavesRoom | src/api/services/JobService.ts:207-216 | With the neighbour search restricted to the lane, the retry after realignment is never exhausted, whatever the other lanes hold. |
| JobScenarios.MoveToTop | src/api/services/JobService.ts:197-236 | With J1 = 1000, J2 = 2000 and J3 = 3000, moving J3 to the top places it at 500 and leaves J1 and J2 unchanged. |
| JobScenarios.MoveIntoEmptyLane | src/api/services/JobService.ts:207-221 | A stored job moved to the top of any column, with the search spanning all lanes, lands on 500 when the least positive sortOrder of the other jobs is 1000, or none is positive, and its write validates. |
| JobScenarios.OnlyJobToEmptyLane | src/api/services/JobService.ts:207-221 | The only job of a store, moved to an empty column, lands on 500 in that column. |
| JobScenarios.TopMoveHalvesLeast | src/api/services/JobService.ts:207-221 | A stored job moved to the top of any column, with the search spanning all lanes, lands on `m / 2`. Here `m` ≥ 2 is the least positive sortOrder of the other jobs in any lane, and the write must validate. |
| JobScenarios.EmptyLaneAfterTopMove | src/api/services/JobService.ts:207-221 | In the store where J3 of another column sits on 500, the least positive sortOrder of the other jobs, J1 moved to the top of the empty column 30 lands on 250. |
| JobScenarios.GlobalSearchStuck | src/api/services/JobService.ts:207-216 | A job at 1001 in another column blocks a move to just after 1000. Realigning the destination lane cannot help, so `move` fails with "Sort order alignment failed". |
| JobScenarios.LaneSearchPlaces | src/api/services/JobService.ts:207-216 | On the same store, the lane-restricted search places the job at 1500. |
| NoteService.CreateNote | src/api/services/NoteService.ts:22-40 | An unknown job is a TypeError. An owner mismatch gives 500 "Note ownerId cannot be different to job owner" and takes precedence over a board mismatch, which gives 500 "Note boardId cannot be different to job board". A job owner that is not an ObjectID is a TypeError. So is a job board that is not one, once the owners agree. A consistent note that fails validation gives the validation error. Success holds iff the note agrees with its job and validates. The note is then appended, and the returned note has no `ownerId`. |
| NoteService.CreateKeepsConsistent | src/api/services/NoteService.ts:22-40 | If every stored note agrees with its job, that still holds after a successful `create`. |
| NoteService.NotesBy | src/api/services/NoteService.ts:42-60 | The query on one reference field, sorted by `createdAt` descending: exactly the notes whose field refers to the id, newest first, without repeats. |
| NoteService.FindByJob | src/api/services/NoteService.ts:42-50 | Returns exactly the notes with that jobId, with `createdAt` descending. |
| NoteService.FindByBoard | src/api/services/NoteService.ts:52-60 | Returns exactly the notes with that boardId, with `createdAt` descending. |
| NoteService.FindByJobUnique | src/api/services/NoteService.ts:42-50 | When creation times differ, the result is the only listing of those notes newest first. |
| NoteService.FindByBoardUnique | src/api/services/NoteService.ts:52-60 | When creation times differ, the result is the only listing of those notes newest first. |
| Generator.CamelCase | commands/lib/Generator.ts:4-5 | Length and every character after the first are kept, and the first is not an upper-case letter. '' maps to ''. |
| Generator.PascalCase | commands/lib/Generator.ts:7-8 | Length and every character after the first are kept, and the first is not a lower-case letter. |
| Generator.CaseRoundTrip | commands/lib/Generator.ts:4-8 | camelCase undoes pascalCase on names starting with a capital. Each helper applied after the other gives what it gives alone, and camelCase is idempotent. |
| Generator.LastWordStart | commands/lib/Generator.ts:11-17 | The split point is the last index whose character equals its upper-case form, or 0 when there is none. |
| Generator.PluralizeLastWord | commands/lib/Generator.ts:10-20 | The text before the split point is kept verbatim and only the rest is pluralized. |
| Generator.NewGenerator | commands/lib/Generator.ts:25-48 | Whatever paths are passed, each path keeps its non-empty default, because `this.x` is or-defaulted before the argument. |
| Generator.IndexOf | commands/lib/Generator.ts:60 | `indexOf` gives the first position where the pattern occurs, or −1 iff it occurs nowhere. |
| Generator.Trim | commands/lib/Generator.ts:66 | `trim` gives the slice between the leading and the trailing white space. It neither starts nor ends with white space, and it is empty only for all-white-space text. |
| Generator.TrimIdempotent | commands/lib/Generator.ts:66 | Trimming a trimmed name changes nothing. |
| Generator.SplitLines | commands/lib/Generator.ts:58 | `split('\n')` yields at least one line, and no line holds a line break. |
| Generator.SplitJoin | commands/lib/Generator.ts:58 | Joining the lines with '\n' gives the source text back. |
| Generator.Put | commands/lib/Generator.ts:68-77 | `fields[k] = v` makes k map to v and changes no other key. An existing key keeps its place and a new key goes last. |
| Generator.Step | commands/lib/Generator.ts:59-79 | One loop pass keeps the invariant that an open context names a nested entry, and keeps keys distinct. An ignored line changes nothing. |
| Generator.ParseFrom | commands/lib/Generator.ts:59-79 | The loop over any lines keeps the invariant that an open context names a nested entry, and keeps keys distinct. |
| Generator.ReadEntityFields | commands/lib/Generator.ts:50-86 | A failed read gives null; otherwise the result is a table with distinct keys. |
| Generator.ParseAppend | commands/lib/Generator.ts:59-79 | Parsing `a + b` equals parsing `b` from the state left by `a`. |
| Generator.IgnoredLineInvisible | commands/lib/Generator.ts:60-65 | A line without `?:`, or holding ` id?:` or `constructor`, changes neither the table nor the open context, wherever it occurs. |
| Generator.StepEffect | commands/lib/Generator.ts:66-77 | A `{` line creates an empty nested entry under its trimmed name and opens it. A `}` field line closes the context and adds a top-level field. A plain field line joins the open nested entry, adding no top-level key, or, with no context open, adds a top-level field. |
| Generator.FlatEntity | commands/lib/Generator.ts:59-79 | Without braces, every declared name maps to '' and the keys appear in first-declaration order. |
| Generator.BareCloseKeepsContext | commands/lib/Generator.ts:67 | A closing-brace line without `?:` leaves the context open, so the next plain field joins the nested entry. |
| Generator.StepClosing | commands/lib/Generator.ts:67 | The corrected loop pass keeps the same invariant and distinct keys. |
| Generator.ClosingBraceReturnsToTop | commands/lib/Generator.ts:67-73 | With the correction, a closing-brace line always closes the nested object, so the next plain field is a top-level ''. |
| Generator.ClosingAgreesWithoutBraces | commands/lib/Generator.ts:59-79 | On text without `}` the corrected parser and the original agree. |
| Generator.ParseClosingFrom | commands/lib/Generator.ts:59-79 | The corrected loop over any lines keeps the same invariant and distinct keys. |
| Generator.ReadEntityFieldsClosing | commands/lib/Generator.ts:50-86 | The corrected reader gives null exactly for a failed read and otherwise a table with distinct keys. |
| GeneratorScenarios.CompanyLocationAbsorbsIndustry | commands/lib/Generator.ts:59-79 | On the lines of the Company entity's `location` object followed by `industry`, the parser files `industry` inside `location`. |
| GeneratorScenarios.CompanyLocationClosed | commands/lib/Generator.ts:59-79 | On the same lines the corrected parser gives `location: {locality}` and a top-level `industry`. |
| Generator.RouteValidationAppend | commands/lib/Generator.ts:187-203 | Emission goes entry by entry: the text for a concatenated table is the concatenation of the texts. |
| Generator.RouteValidation | commands/lib/Generator.ts:187-203 | The text is empty exactly for an empty table, and otherwise opens with the first key's entry. |
| Generator.EntryText | commands/lib/Generator.ts:190-200 | Every entry opens with its key at six spaces' indentation, followed by `: `. |
| Generator.EntryEnd | commands/lib/Generator.ts:190-200 | Every entry ends in `.required(),` followed by a line break iff `required` is set. |
| Generator.RouteValidationLines | commands/lib/Generator.ts:187-203 | The text has one line per plain key. Each nested object adds an opening line, one line per inner key and a closing line. |
| Generator.InnerLinesSplit | commands/lib/Generator.ts:191-196 | A nested object's inner text, split at line breaks, is one line per inner key in order. Line i is key i at eight spaces' indentation, then `: Joi.string()`, `.required()` when required, and a comma. The last piece is the empty text after the final break. |
| Generator.RouteValidationSplit | commands/lib/Generator.ts:187-203 | The whole emitted text, split at line breaks, is exactly the reference lines in table order, then the empty text after the final break. A plain field gives its own line. A nested object gives its opening line, its inner key lines and its `})` closing line. |

## Left out

- File I/O and logging: `readEntityFields` receives the file's text, or `None` for a failed read. Composing the path and `console.log` are not modelled.
- The rest of the generator is not modelled: `entityCode`, `serviceCode`, `routeCode`, test templates and `generate*`. These are template concatenation and file writes.
- `pluralize` is a third-party library and is a parameter.
- Generator.CamelCase: maps case for ASCII letters only. JavaScript's `toLowerCase`/`toUpperCase` cover all of Unicode, including length-changing mappings such as 'ß'.
- Generator.PascalCase: ASCII-only case mapping, as for CamelCase.
- Generator.LastWordStart: "equals its upper-case form" uses ASCII case mapping. A non-ASCII lower-case letter therefore counts as a split point here but not in JavaScript.
- Generator.Put: keys are kept in insertion order. JavaScript enumerates array-index keys such as "1" first, and treats `__proto__` specially; field names of that form are not modelled.
- class-validator is the abstract predicate `validate`. The thrown error array is the single `ValidationFailed`.
- Timestamps are dropped: `updatedAt = new Date()` and `createdAt` defaults. `createdAt` is an ordinary field that notes are sorted by.
- The population helpers `fill*Field` (src/api/services/JobService.ts:34-52, src/api/services/CRUD.ts:28-44) are not modelled.
  - They replace a job's `company` and `boardColumn` ids in the returned record by the stored entities. They write nothing to the store.
  - They can still throw after a write has been saved.
  - `findOne` throws 404 "Not found" when the referenced company or board column is not stored.
  - `fillObjectIdField` throws 500 "<field> does not exist in Job" when the field is absent.
  - The model's results are those of the save itself. Each member below names what this leaves out. `Reflect.deleteProperty` is modelled as removing the key from the returned record.
- JobService.CreateJob: success assumes the post-save population succeeds (JobService.ts:92-93).
  - The job's `boardColumn` must name a stored board column.
  - When `company` is not a string, it must name a stored company.
  - Otherwise the source has already saved the job, then throws 404 or 500. The model returns `Ok`.
- JobService.PlaceAt: the write goes through `JobService.update`, which populates fields after the save (JobService.ts:190-192).
  - Success assumes the destination column, and a non-string `company`, name stored entities.
  - Otherwise the source saves the new sortOrder and boardColumn, then throws 404 or 500, while the model returns `Placed`.
- JobService.TryPlace: "lands" means the write is saved. It inherits PlaceAt's omission of the 404 or 500 thrown after the save.
- JobService.Move: its success iff concerns the save. For example, `move(id, board, C, prev)` with C the id of no stored board column saves the new position and then throws 404 in the source. The model's `result` is `Ok`, with the same store.
- JobService.RetryAfterAlign: "lands" after a complete realignment has the same omission as Move: the post-save 404 or 500 is not modelled.
- ObjectID generation is a counter `next`, because real ids are random and clock based. Stored ids stay distinct and below `next`.
- Query semantics cover only field equality, numeric `$gt` and `id $not $eq`, which are the queries the core issues. The store's sort is stable: rows with equal keys keep store order, where MongoDB leaves their order unspecified.
- JobService.LowerBound: reads a non-numeric sortOrder as 0. `(prevJob && prevJob.sortOrder) || 0` keeps a truthy non-number such as "x", and the later arithmetic would then concatenate strings. The entity declares `sortOrder` with `@IsNumber` (src/api/entities/Job.ts:46-47), so validated jobs hold numbers; stored non-numbers are not modelled.
- Strings are sequences of Unicode scalar values. JavaScript strings are sequences of UTF-16 code units, so `length`, `charAt`, `indexOf` and `substring` give different positions on text with characters outside the Basic Multilingual Plane. For example, `pluralizeLastWord` can split inside a surrogate pair. Such names are not modelled.
- Crud.Find: the 404 branch for a falsy result is not modelled. `repo.find` always returns an array, so the branch cannot be reached.
- JobService.Midpoint: sortOrder is an unbounded integer. JavaScript numbers are doubles and lose integer precision above 2^53.
- Geocoding in `JobService.update` is left out: it calls an external network API.
- Routes, authentication and the route-level call of `move` with shifted arguments are left out.
- Concurrency is not modelled: the model is strictly sequential, and there is no locking between the neighbour read and the write in the source either.

## Findings

| source | as written | input that shows it | evidently intended | confidence | as-written member | corrected member |
|---|---|---|---|---|---|---|
| src/api/services/JobService.ts:207-216 | The neighbour query `{sortOrder: {$gt: min}, id: {$not: {$eq: id}}}` matches jobs in every lane, while the retry only realigns the destination lane. | Lane (10, 20) holds J1 = 1000 and J3 = 2000; J2 = 1001 sits in column 30. Moving J3 after J1 finds max = 1001, realigning lane 20 changes nothing, and `move` fails with "Sort order alignment failed". | Search only the destination lane, so that realignment always leaves room. | medium, not executed | JobScenarios.GlobalSearchStuck | JobService.LaneSearchLeavesRoom |
| commands/lib/Generator.ts:67 | The `}` test runs only on lines holding `?:`, so the bare `};` that closes a nested field leaves the nested context open. | The Company entity (src/api/entities/Company.ts:50-58): `location?: {`, `locality?: string;`, `};`, `industry?: string;` files `industry` inside `location`. | Any line with a closing brace ends the nested object, so `industry` is a top-level field. | high, not executed | GeneratorScenarios.CompanyLocationAbsorbsIndustry | Generator.ClosingBraceReturnsToTop |

=== FILE: crud.dfy ===
/** The generic repository service every entity service extends
    (src/api/services/CRUD.ts), over an in-memory collection. Rows are kept
    in insertion order, which is the order an unsorted query returns. */
module Crud {
  import opened Wrappers
  import opened Values
  import opened Sorting

  /** One collection: the entity's class name (used in error messages),
      its rows, and the next ObjectID the store will hand out. */
  datatype Collection = Collection(entity: string, rows: seq<Row>, next: Id) {
    /** Ids are unique and all below `next`, so `next` is always fresh. */
    predicate Valid() {
      && DistinctIds(rows)
      && forall i :: 0 <= i < |rows| ==> rows[i].id < next
    }
  }

  /** One condition of a `where` clause. */
  datatype Cond =
    | Eq(field: string, value: Value)  // { field: value } or { field: { $eq: value } }
    | Gt(field: string, bound: int)    // { field: { $gt: bound } }, matching numbers only
    | IdNot(id: Id)                    // { id: { $not: { $eq: id } } }

  /** A conjunction of conditions. */
  type Query = seq<Cond>

  predicate Holds(c: Cond, x: Row) {
    match c
    case Eq(f, v) => Get(x.rec, f) == v
    case Gt(f, b) => Get(x.rec, f).Num? && Get(x.rec, f).n > b
    case IdNot(i) => x.id != i
  }

  predicate Matches(q: Query, x: Row) {
    forall k :: 0 <= k < |q| ==> Holds(q[k], x)
  }

  lemma MatchesConcat(a: Query, b: Query, x: Row)
    ensures Matches(a + b, x) <==> Matches(a, x) && Matches(b, x)
  {
    if Matches(a, x) && Matches(b, x) {
      forall k | 0 <= k < |a + b|
        ensures Holds((a + b)[k], x)
      {
        if k >= |a| {
          assert (a + b)[k] == b[k - |a|];
        }
      }
    }
    if Matches(a + b, x) {
      assert forall k :: 0 <= k < |a| ==> (a + b)[k] == a[k];
      assert forall k :: 0 <= k < |b| ==> (a + b)[|a| + k] == b[k];
    }
  }

  /** `order: { field: 'ASC' | 'DESC' }`, or no order at all. */
  datatype Order = Natural | By(field: string, asc: bool)

  predicate HasId(rows: seq<Row>, id: Id) {
    exists i :: 0 <= i < |rows| && rows[i].id == id
  }

  /** The rows matching `q`, in store order. */
  function Filter(rows: seq<Row>, q: Query): (r: seq<Row>)
    ensures forall x :: x in r <==> x in rows && Matches(q, x)
    ensures DistinctIds(rows) ==> DistinctIds(r)
    decreases |rows|
  {
    if rows == [] then []
    else
      var rest := Filter(rows[1..], q);
      assert rows == [rows[0]] + rows[1..];
      if Matches(q, rows[0]) then
        HeadIdFresh(rows, rest);
        [rows[0]] + rest
      else
        rest
  }

  /** The first row's id does not occur among rows drawn from the others. */
  lemma HeadIdFresh(rows: seq<Row>, rest: seq<Row>)
    requires rows != [] && forall y :: y in rest ==> y in rows[1..]
    requires DistinctIds(rows[1..]) ==> DistinctIds(rest)
    ensures DistinctIds(rows) ==> DistinctIds([rows[0]] + rest)
  {
    if DistinctIds(rows) {
      forall y | y in rest
        ensures y.id != rows[0].id
      {
        var k :| 0 <= k < |rows[1..]| && rows[1..][k] == y;
        assert rows[k + 1] == y;
      }
      ConsDistinct(rows[0], rest);
    }
  }

  /** A listing without repeated rows has as many rows as its set. */
  lemma {:induction false} DistinctCard(s: seq<Row>)
    requires DistinctIds(s)
    ensures |set x | x in s| == |s|
  {
    if s != [] {
      HeadNotInTail(s);
      DistinctCard(s[1..]);
      SetOfCons(s);
    }
  }

  lemma HeadNotInTail(s: seq<Row>)
    requires DistinctIds(s) && s != []
    ensures DistinctIds(s[1..]) && s[0] !in s[1..]
  {
    var t := s[1..];
    forall k | 0 <= k < |t|
      ensures t[k] != s[0]
    {
      assert t[k].id == s[k + 1].id;
    }
  }

  lemma SetOfCons(s: seq<Row>)
    requires s != []
    ensures (set x | x in s) == (set x | x in s[1..]) + {s[0]}
  {
    assert s == [s[0]] + s[1..];
  }

  /** `find(options)`: the matching rows, sorted when an order is given and
      cut to the first `take` rows when a limit is given; a limit of 0 is
      no limit, as for a MongoDB cursor. An empty result is a result, not an
      error. */
  function Find(c: Collection, q: Query, order: Order, take: Option<nat>): (r: seq<Row>)
    ensures forall x :: x in r ==> x in c.rows && Matches(q, x)
    ensures take.None? || take.value == 0 ==> forall x :: x in c.rows && Matches(q, x) ==> x in r
    ensures take.Some? && take.value > 0 ==> |r| <= take.value
    ensures take.Some? ==> |r| == take.value || forall x :: x in c.rows && Matches(q, x) ==> x in r
    ensures order.By? ==> SortedBy(r, order.field, order.asc)
    ensures order.By? ==> forall x, i ::
      x in c.rows && Matches(q, x) && x !in r && 0 <= i < |r| ==> Before(r[i], x, order.field, order.asc)
    ensures c.Valid() ==> DistinctIds(r)
  {
    var all := Filter(c.rows, q);
    var listed := if order.By? then Sort(all, order.field, order.asc) else all;
    SameMembers(listed, all);
    if take.Some? && 0 < take.value < |listed| then
      TakePrefix(listed, take.value, order);
      listed[..take.value]
    else
      listed
  }

  /** The first row of an ordered listing comes before every match. */
  lemma FindFirst(c: Collection, q: Query, field: string, asc: bool, take: Option<nat>, r: seq<Row>)
    requires r == Find(c, q, By(field, asc), take) && r != []
    ensures r[0] in c.rows && Matches(q, r[0])
    ensures forall x :: x in c.rows && Matches(q, x) ==> Before(r[0], x, field, asc)
  {
    assert r[0] in r;
    forall x | x in c.rows && Matches(q, x)
      ensures Before(r[0], x, field, asc)
    {
      if x in r {
        var k :| 0 <= k < |r| && r[k] == x;
        if k == 0 {
          BeforeRefl(x, field, asc);
        } else {
          assert SortedBy(r, field, asc);
        }
      }
    }
  }

  lemma SameMembers(a: seq<Row>, b: seq<Row>)
    requires multiset(a) == multiset(b)
    ensures forall x :: x in a <==> x in b
  {
    forall x ensures x in a <==> x in b {
      assert x in a <==> x in multiset(a);
    }
  }

  /** Every row cut off by a limit comes after every row kept. */
  lemma TakePrefix(listed: seq<Row>, n: nat, order: Order)
    requires n < |listed|
    requires order.By? ==> SortedBy(listed, order.field, order.asc)
    ensures forall x :: x in listed[..n] ==> x in listed
    ensures order.By? ==> forall x, i :: x in listed && x !in listed[..n] && 0 <= i < n ==>
      Before(listed[..n][i], x, order.field, order.asc)
  {
    if order.By? {
      forall x, i | x in listed && x !in listed[..n] && 0 <= i < n
        ensures Before(listed[..n][i], x, order.field, order.asc)
      {
        var m :| 0 <= m < |listed| && listed[m] == x;
        assert m >= n;
      }
    }
  }

  /** `count(query)`: how many stored rows match. */
  function Count(c: Collection, q: Query): (n: nat)
    ensures c.Valid() ==> n == |set x | x in c.rows && Matches(q, x)|
  {
    var all := Filter(c.rows, q);
    CountMatches(c, q, all);
    |all|
  }

  lemma CountMatches(c: Collection, q: Query, all: seq<Row>)
    requires forall x :: x in all <==> x in c.rows && Matches(q, x)
    requires c.Valid() ==> DistinctIds(all)
    ensures c.Valid() ==> |all| == |set x | x in c.rows && Matches(q, x)|
  {
    if c.Valid() {
      DistinctCard(all);
      assert (set x | x in all) == set x | x in c.rows && Matches(q, x);
    }
  }

  /** The row with the given id, if any. */
  function Lookup(rows: seq<Row>, id: Id): (r: Option<Row>)
    ensures r.Some? ==> r.value in rows && r.value.id == id
    ensures r.None? <==> !HasId(rows, id)
    ensures DistinctIds(rows) ==> forall i :: 0 <= i < |rows| && rows[i].id == id ==> r == Some(rows[i])
    decreases |rows|
  {
    if rows == [] then None
    else if rows[0].id == id then Some(rows[0])
    else
      LookupTail(rows, id);
      Lookup(rows[1..], id)
  }

  lemma LookupTail(rows: seq<Row>, id: Id)
    requires rows != [] && rows[0].id != id
    ensures HasId(rows, id) <==> HasId(rows[1..], id)
    ensures DistinctIds(rows) ==> DistinctIds(rows[1..])
    ensures forall i :: 1 <= i < |rows| ==> rows[i] == rows[1..][i - 1]
  {
    if HasId(rows, id) {
      var i :| 0 <= i < |rows| && rows[i].id == id;
      assert rows[1..][i - 1].id == id;
    }
    if HasId(rows[1..], id) {
      var i :| 0 <= i < |rows[1..]| && rows[1..][i].id == id;
      assert rows[i + 1].id == id;
    }
  }

  /** `findOne(id)`: the row, or a 404 when no row has that id. */
  function FindOne(c: Collection, id: Id): (r: Result<Row, Error>)
    ensures r.Ok? <==> HasId(c.rows, id)
    ensures r.Ok? ==> r.value in c.rows && r.value.id == id
    ensures r.Err? ==> r.error == NotFound
  {
    match Lookup(c.rows, id)
    case Some(x) => Ok(x)
    case None => Err(NotFound)
  }

  /** `create(entity, identifier?)`: validation first, then, when an
      identifier field is named, refusal of a duplicate value in that
      field; otherwise the record is stored under a fresh id. */
  function Create(c: Collection, e: Record, identifier: Option<string>, validate: Record -> bool): (r: Result<(Collection, Row), Error>)
    ensures !validate(e) ==> r == Err(ValidationFailed)
    ensures validate(e) && identifier.Some? && identifier.value != ""
            && (exists x :: x in c.rows && Get(x.rec, identifier.value) == Get(e, identifier.value))
            ==> r == Err(Http(400, "The " + c.entity + " already exists"))
    ensures r.Ok? <==> validate(e) && (identifier.None? || identifier.value == ""
                         || forall x :: x in c.rows ==> Get(x.rec, identifier.value) != Get(e, identifier.value))
    ensures r.Ok? ==> r.value.1.rec == e && r.value.0.rows == c.rows + [r.value.1]
    ensures r.Ok? ==> r.value.0.entity == c.entity
    ensures r.Ok? && c.Valid() ==> r.value.0.Valid() && !HasId(c.rows, r.value.1.id)
  {
    if !validate(e) then Err(ValidationFailed)
    else if identifier.Some? && identifier.value != ""
         && exists x :: x in c.rows && Get(x.rec, identifier.value) == Get(e, identifier.value) then
      Err(Http(400, "The " + c.entity + " already exists"))
    else
      var row := Row(c.next, e);
      Ok((c.(rows := c.rows + [row], next := c.next + 1), row))
  }

  /** The truthy-value merge of `update`: a patched key overwrites the
      stored value only when the new value is truthy. */
  function Merge(rec: Record, patch: map<string, Value>): (r: Record)
    ensures forall k :: k in patch && Truthy(patch[k]) ==> Get(r, k) == patch[k]
    ensures forall k :: !(k in patch && Truthy(patch[k])) ==> Get(r, k) == Get(rec, k)
  {
    map k | k in rec.Keys + patch.Keys && (k in rec || Truthy(patch[k])) ::
      if k in patch && Truthy(patch[k]) then patch[k] else rec[k]
  }

  /** Replaces the record of the row with id `id`, in place. */
  function Replace(rows: seq<Row>, id: Id, rec: Record): (r: seq<Row>)
    ensures |r| == |rows|
    ensures forall i :: 0 <= i < |rows| ==> r[i].id == rows[i].id
    ensures forall i :: 0 <= i < |rows| && rows[i].id != id ==> r[i] == rows[i]
    ensures forall i :: 0 <= i < |rows| && rows[i].id == id ==> r[i].rec == rec
  {
    seq(|rows|, i requires 0 <= i < |rows| => if rows[i].id == id then Row(id, rec) else rows[i])
  }

  /** `update(id, fields)`: 404 for an unknown id; otherwise the truthy
      merge, validated, saved in place. Returns the new collection and the
      saved record. */
  function Update(c: Collection, id: Id, patch: map<string, Value>, validate: Record -> bool): (r: Result<(Collection, Record), Error>)
    ensures r == Err(NotFound) <==> !HasId(c.rows, id)
    ensures r.Err? ==> r.error == NotFound || r.error == ValidationFailed
    ensures c.Valid() && HasId(c.rows, id) ==>
      (r.Ok? <==> forall i :: 0 <= i < |c.rows| && c.rows[i].id == id ==> validate(Merge(c.rows[i].rec, patch)))
    ensures r == Err(ValidationFailed) ==>
      exists i :: 0 <= i < |c.rows| && c.rows[i].id == id && !validate(Merge(c.rows[i].rec, patch))
    ensures r.Ok? ==> HasId(c.rows, id) && validate(r.value.1)
    ensures r.Ok? ==> r.value.0.entity == c.entity && r.value.0.next == c.next
    ensures r.Ok? ==> |r.value.0.rows| == |c.rows|
    ensures r.Ok? ==> forall i :: 0 <= i < |c.rows| ==> r.value.0.rows[i].id == c.rows[i].id
    ensures r.Ok? ==> forall i :: 0 <= i < |c.rows| && c.rows[i].id != id ==> r.value.0.rows[i] == c.rows[i]
    ensures r.Ok? && c.Valid() ==> forall i :: 0 <= i < |c.rows| && c.rows[i].id == id ==>
      && r.value.0.rows[i].rec == r.value.1
      && r.value.1 == Merge(c.rows[i].rec, patch)
      && forall k :: Get(r.value.1, k) == if k in patch && Truthy(patch[k]) then patch[k] else Get(c.rows[i].rec, k)
    ensures r.Ok? && c.Valid() ==> r.value.0.Valid()
  {
    match Lookup(c.rows, id)
    case None => Err(NotFound)
    case Some(found) =>
      var merged := Merge(found.rec, patch);
      if !validate(merged) then Err(ValidationFailed)
      else Ok((c.(rows := Replace(c.rows, id, merged)), merged))
  }

  /** `delete(id)`: drops the row with that id, if any; nothing else changes. */
  function Delete(c: Collection, id: Id): (r: Collection)
    ensures forall x :: x in r.rows <==> x in c.rows && x.id != id
    ensures !HasId(r.rows, id)
    ensures r.entity == c.entity && r.next == c.next
    ensures c.Valid() ==> r.Valid()
  {
    var rows := Filter(c.rows, [IdNot(id)]);
    DeleteFacts(c, id, rows);
    c.(rows := rows)
  }

  lemma DeleteFacts(c: Collection, id: Id, rows: seq<Row>)
    requires forall x :: x in rows <==> x in c.rows && Matches([IdNot(id)], x)
    requires c.Valid() ==> DistinctIds(rows)
    ensures forall x :: x in rows <==> x in c.rows && x.id != id
    ensures !HasId(rows, id)
    ensures c.Valid() ==> c.(rows := rows).Valid()
  {
    forall x ensures Matches([IdNot(id)], x) <==> x.id != id {
      assert Matches([IdNot(id)], x) ==> Holds([IdNot(id)][0], x);
    }
    forall i | 0 <= i < |rows| ensures rows[i].id != id {
      assert rows[i] in rows;
    }
    if c.Valid() {
      forall i | 0 <= i < |rows| ensures rows[i].id < c.next {
        assert rows[i] in c.rows;
      }
    }
  }

  /** After `delete(id)`, `findOne(id)` fails with 404. */
  lemma DeleteThenFindOne(c: Collection, id: Id)
    ensures FindOne(Delete(c, id), id) == Err(NotFound)
  {
  }

  /** A second `update` with the same fields changes nothing more. */
  lemma {:induction false} MergeIdempotent(rec: Record, patch: map<string, Value>)
    ensures Merge(Merge(rec, patch), patch) == Merge(rec, patch)
  {
    var once := Merge(rec, patch);
    var twice := Merge(once, patch);
    assert twice.Keys == once.Keys;
    forall k | k in once
      ensures twice[k] == once[k]
    {
      assert Get(twice, k) == Get(once, k);
    }
  }
}

=== FILE: generator.dfy ===
/** The string helpers and the entity-field parser of the code generator
    (commands/lib/Generator.ts). Case mapping covers ASCII letters only. */
module Generator {
  import opened Wrappers

  // ---------------------------------------------------------------------
  // Case helpers

  predicate IsUpperLetter(c: char) {
    'A' <= c <= 'Z'
  }

  predicate IsLowerLetter(c: char) {
    'a' <= c <= 'z'
  }

  /** `c.toLowerCase()` */
  function Lower(c: char): (r: char)
    ensures !IsUpperLetter(r)
    ensures !IsUpperLetter(c) ==> r == c
  {
    if IsUpperLetter(c) then (c as int + 32) as char else c
  }

  /** `c.toUpperCase()` */
  function Upper(c: char): (r: char)
    ensures !IsLowerLetter(r)
    ensures !IsLowerLetter(c) ==> r == c
  {
    if IsLowerLetter(c) then (c as int - 32) as char else c
  }

  /** Changing case twice keeps only the last change. */
  lemma CaseAbsorbs(c: char)
    ensures Lower(Upper(c)) == Lower(c) && Upper(Lower(c)) == Upper(c)
    ensures IsUpperLetter(c) ==> Upper(Lower(c)) == c
  {
  }

  /** `camelCase(str)`: the first character in lower case, the rest as is. */
  function CamelCase(s: string): (r: string)
    ensures |r| == |s|
    ensures s != [] ==> r[1..] == s[1..] && !IsUpperLetter(r[0])
    ensures s != [] && !IsUpperLetter(s[0]) ==> r == s
  {
    if s == [] then [] else [Lower(s[0])] + s[1..]
  }

  /** `pascalCase(str)`: the first character in upper case, the rest as is. */
  function PascalCase(s: string): (r: string)
    ensures |r| == |s|
    ensures s != [] ==> r[1..] == s[1..] && !IsLowerLetter(r[0])
    ensures s != [] && !IsLowerLetter(s[0]) ==> r == s
  {
    if s == [] then [] else [Upper(s[0])] + s[1..]
  }

  /** Each of the two case helpers undoes the other on the names it
      produces: a PascalCase name survives a trip through camelCase, and
      either helper applied after the other gives what it gives alone. */
  lemma {:induction false} CaseRoundTrip(s: string)
    ensures s != [] && IsUpperLetter(s[0]) ==> PascalCase(CamelCase(s)) == s
    ensures CamelCase(PascalCase(s)) == CamelCase(s)
    ensures PascalCase(CamelCase(s)) == PascalCase(s)
    ensures CamelCase(CamelCase(s)) == CamelCase(s)
  {
    if s != [] {
      CaseAbsorbs(s[0]);
      assert CamelCase(PascalCase(s)) == [Lower(Upper(s[0]))] + s[1..];
      assert PascalCase(CamelCase(s)) == [Upper(Lower(s[0]))] + s[1..];
    }
  }

  // ---------------------------------------------------------------------
  // pluralizeLastWord

  /** The character equals its upper-case form: anything but a lower-case
      letter, digits and punctuation included. */
  predicate UpperForm(c: char) {
    Upper(c) == c
  }

  /** `k` is where the last word starts: the last position holding an
      upper-case form, or 0 when there is none. */
  predicate IsLastWordStart(s: string, k: nat) {
    && k <= |s|
    && (k == 0 || (k < |s| && UpperForm(s[k])))
    && forall j :: k < j < |s| ==> !UpperForm(s[j])
  }

  lemma LastWordStartUnique(s: string, k1: nat, k2: nat)
    requires IsLastWordStart(s, k1) && IsLastWordStart(s, k2)
    ensures k1 == k2
  {
  }

  /** The start of the last word, searched from the end. */
  function LastWordStart(s: string): (k: nat)
    ensures IsLastWordStart(s, k)
    decreases |s|
  {
    if s == [] then 0
    else if UpperForm(s[|s| - 1]) then |s| - 1
    else
      var k := LastWordStart(s[..|s| - 1]);
      assert forall j :: k < j < |s| - 1 ==> s[j] == s[..|s| - 1][j];
      k
  }

  /** `pluralizeLastWord(str)`: the text before the last word verbatim,
      then the last word pluralized. The pluralizer is a parameter. */
  method PluralizeLastWord(s: string, pluralize: string -> string) returns (r: string)
    ensures var k := LastWordStart(s); r == s[..k] + pluralize(s[k..])
  {
    var found := 0;
    var i := |s| - 1;
    while i >= 0
      invariant -1 <= i < |s|
      invariant forall j :: i < j < |s| ==> !UpperForm(s[j])
      decreases i + 1
    {
      if s[i] == Upper(s[i]) {
        found := i;
        break;
      }
      i := i - 1;
    }
    LastWordStartUnique(s, found, LastWordStart(s));
    r := s[..found] + pluralize(s[found..]);
  }

  // ---------------------------------------------------------------------
  // The constructor

  const DefaultEntityPath := "src/api/entities/"
  const DefaultServicePath := "src/api/services/"
  const DefaultRoutePath := "src/api/routes/"
  const DefaultFactoryPath := "src/database/factories/"
  const DefaultTestPath := "test/integration/"
  const DefaultE2ePath := "test/e2e/routes/"

  /** JavaScript's `a || b` on an optional string. */
  function Or(a: Option<string>, b: Option<string>): Option<string> {
    if a.Some? && a.value != "" then a else b
  }

  datatype Paths = Paths(
    entity: Option<string>,
    service: Option<string>,
    route: Option<string>,
    factory: Option<string>,
    test: Option<string>,
    e2e: Option<string>)

  const DefaultPaths := Paths(Some(DefaultEntityPath), Some(DefaultServicePath), Some(DefaultRoutePath),
                              Some(DefaultFactoryPath), Some(DefaultTestPath), Some(DefaultE2ePath))

  datatype GeneratorConfig = GeneratorConfig(entityName: string, paths: Paths)

  /** `new Generator(entityName, entityPath?, ...)`: each path is
      `this.path || argument`, and the field already holds its non-empty
      default, so the path arguments never take effect. */
  function NewGenerator(entityName: string, entityPath: Option<string>, servicePath: Option<string>,
                        routePath: Option<string>, factoryPath: Option<string>, testPath: Option<string>,
                        e2ePath: Option<string>): (g: GeneratorConfig)
    ensures g.entityName == entityName
    ensures g.paths == DefaultPaths
  {
    var d := DefaultPaths;
    GeneratorConfig(entityName, Paths(
      Or(d.entity, entityPath), Or(d.service, servicePath), Or(d.route, routePath),
      Or(d.factory, factoryPath), Or(d.test, testPath), Or(d.e2e, e2ePath)))
  }

  // ---------------------------------------------------------------------
  // String searching and trimming

  /** `pat` occurs in `s` at position `i`. */
  predicate OccursAt(s: string, pat: string, i: int) {
    0 <= i && i + |pat| <= |s| && s[i..i + |pat|] == pat
  }

  /** The first occurrence of `pat` in `s` at or after `i`, or -1. */
  function IndexFrom(s: string, pat: string, i: nat): (r: int)
    requires i <= |s|
    ensures r == -1 <==> forall j :: i <= j ==> !OccursAt(s, pat, j)
    ensures r != -1 ==> i <= r && OccursAt(s, pat, r) && forall j :: i <= j < r ==> !OccursAt(s, pat, j)
    decreases |s| - i
  {
    if i + |pat| > |s| then -1
    else if s[i..i + |pat|] == pat then
      assert OccursAt(s, pat, i);
      i
    else IndexFrom(s, pat, i + 1)
  }

  /** `s.indexOf(pat)` */
  function IndexOf(s: string, pat: string): (r: int)
    ensures r == -1 <==> forall j :: !OccursAt(s, pat, j)
    ensures r != -1 ==> OccursAt(s, pat, r) && forall j :: j < r ==> !OccursAt(s, pat, j)
  {
    IndexFrom(s, pat, 0)
  }

  /** `s.indexOf(pat) !== -1` */
  predicate Has(s: string, pat: string) {
    IndexOf(s, pat) != -1
  }

  /** A pattern holding a character that `s` lacks does not occur in `s`. */
  lemma CharAbsent(s: string, pat: string, k: nat)
    requires k < |pat| && pat[k] !in s
    ensures !Has(s, pat)
  {
  }

  /** The characters `String.prototype.trim` removes: white space and line
      terminators. */
  predicate IsSpace(c: char) {
    || c == ' ' || c == '\t' || c == '\n' || c == '\r' || c == '\U{000B}' || c == '\U{000C}'
    || c == '\U{00A0}' || c == '\U{1680}' || '\U{2000}' <= c <= '\U{200A}'
    || c == '\U{2028}' || c == '\U{2029}' || c == '\U{202F}' || c == '\U{205F}'
    || c == '\U{3000}' || c == '\U{FEFF}'
  }

  /** The number of white-space characters `s` starts with. */
  function LeadingSpaces(s: string): (a: nat)
    ensures a <= |s| && (a == |s| || !IsSpace(s[a]))
    ensures forall j :: 0 <= j < a ==> IsSpace(s[j])
  {
    if s != [] && IsSpace(s[0]) then
      var a := LeadingSpaces(s[1..]);
      assert forall j :: 1 <= j < a + 1 ==> s[j] == s[1..][j - 1];
      a + 1
    else 0
  }

  /** Where the white space `s` ends with begins. */
  function TrailingStart(s: string): (b: nat)
    ensures b <= |s| && (b == 0 || !IsSpace(s[b - 1]))
    ensures forall j :: b <= j < |s| ==> IsSpace(s[j])
  {
    if s != [] && IsSpace(s[|s| - 1]) then
      var b := TrailingStart(s[..|s| - 1]);
      assert forall j :: b <= j < |s| - 1 ==> s[j] == s[..|s| - 1][j];
      b
    else |s|
  }

  /** `s.trim()`: the slice of `s` left after dropping white space at both
      ends; it neither starts nor ends with white space, and everything
      dropped is white space. */
  function Trim(s: string): (r: string)
    ensures r == [] || (!IsSpace(r[0]) && !IsSpace(r[|r| - 1]))
    ensures r == [] ==> forall j :: 0 <= j < |s| ==> IsSpace(s[j])
    ensures r != [] ==> && LeadingSpaces(s) < TrailingStart(s)
                        && r == s[LeadingSpaces(s)..TrailingStart(s)]
  {
    var a := LeadingSpaces(s);
    var b := TrailingStart(s);
    if a < b then s[a..b]
    else []
  }

  /** Trimming twice trims nothing more. */
  lemma TrimIdempotent(s: string)
    ensures Trim(Trim(s)) == Trim(s)
  {
    var t := Trim(s);
    if t != [] {
      assert LeadingSpaces(t) == 0;
      assert TrailingStart(t) == |t|;
      assert t[0..|t|] == t;
    }
  }

  /** `source.split('\n')`. */
  function SplitLines(s: string): (r: seq<string>)
    ensures |r| >= 1
    ensures forall i :: 0 <= i < |r| ==> '\n' !in r[i]
    decreases |s|
  {
    var i := IndexOf(s, "\n");
    if i == -1 then
      assert forall j :: 0 <= j < |s| ==> s[j] != '\n' by {
        forall j | 0 <= j < |s| ensures s[j] != '\n' {
          assert !OccursAt(s, "\n", j);
          assert s[j..j + 1] == [s[j]];
        }
      }
      [s]
    else
      assert s[i..i + 1] == "\n";
      assert forall j :: 0 <= j < i ==> s[j] != '\n' by {
        forall j | 0 <= j < i ensures s[j] != '\n' {
          assert !OccursAt(s, "\n", j);
          assert s[j..j + 1] == [s[j]];
        }
      }
      [s[..i]] + SplitLines(s[i + 1..])
  }

  /** `lines.join('\n')` */
  function JoinLines(ls: seq<string>): string {
    if ls == [] then []
    else if |ls| == 1 then ls[0]
    else ls[0] + "\n" + JoinLines(ls[1..])
  }

  lemma SplitLinesCons(s: string, i: int)
    requires i == IndexOf(s, "\n") && i != -1
    ensures 0 <= i < |s| && s[i] == '\n'
    ensures SplitLines(s) == [s[..i]] + SplitLines(s[i + 1..])
  {
    assert s[i..i + 1] == "\n";
  }

  lemma AroundBreak(s: string, i: int)
    requires 0 <= i < |s| && s[i] == '\n'
    ensures s == s[..i] + "\n" + s[i + 1..]
  {
    assert s[..i] + "\n" + s[i + 1..] == s[..i] + s[i..i + 1] + s[i + 1..];
  }

  lemma JoinCons(x: string, rest: seq<string>)
    requires rest != []
    ensures JoinLines([x] + rest) == x + "\n" + JoinLines(rest)
  {
    assert ([x] + rest)[1..] == rest;
  }

  /** Splitting loses nothing: joining the lines gives the source back. */
  lemma {:induction false} SplitJoin(s: string)
    ensures JoinLines(SplitLines(s)) == s
    decreases |s|
  {
    var i := IndexOf(s, "\n");
    if i != -1 {
      SplitLinesCons(s, i);
      AroundBreak(s, i);
      JoinCons(s[..i], SplitLines(s[i + 1..]));
      SplitJoin(s[i + 1..]);
    }
  }

  // ---------------------------------------------------------------------
  // The field table built by readEntityFields

  /** A field's value: `''` for a plain field, an object listing its inner
      field names for a nested one. */
  datatype Entry = Leaf | Nested(keys: seq<string>)

  datatype Field = Field(name: string, entry: Entry)

  /** A JavaScript object used as a map: its keys in insertion order. */
  type Fields = seq<Field>

  function Names(fs: Fields): seq<string> {
    if fs == [] then [] else [fs[0].name] + Names(fs[1..])
  }

  predicate Distinct(ns: seq<string>) {
    forall i, j :: 0 <= i < j < |ns| ==> ns[i] != ns[j]
  }

  /** `fields[name]` */
  function Lookup(fs: Fields, name: string): (r: Option<Entry>)
    ensures r.None? <==> name !in Names(fs)
  {
    if fs == [] then None
    else if fs[0].name == name then Some(fs[0].entry)
    else Lookup(fs[1..], name)
  }

  lemma DistinctSnoc(ns: seq<string>, n: string)
    requires Distinct(ns) && n !in ns
    ensures Distinct(ns + [n])
  {
  }

  /** `fields[name] = e`: an existing key keeps its place, a new key goes
      last, and no other key changes. */
  function Put(fs: Fields, name: string, e: Entry): (r: Fields)
    ensures Lookup(r, name) == Some(e)
    ensures forall m :: m != name ==> Lookup(r, m) == Lookup(fs, m)
    ensures name in Names(fs) ==> Names(r) == Names(fs)
    ensures name !in Names(fs) ==> Names(r) == Names(fs) + [name]
  {
    if fs == [] then [Field(name, e)]
    else if fs[0].name == name then [Field(name, e)] + fs[1..]
    else
      var rest := Put(fs[1..], name, e);
      assert Names([fs[0]] + rest) == [fs[0].name] + Names(rest);
      [fs[0]] + rest
  }

  /** Keys stay distinct under Put. */
  lemma PutDistinct(fs: Fields, name: string, e: Entry)
    requires Distinct(Names(fs))
    ensures Distinct(Names(Put(fs, name, e)))
  {
    if name !in Names(fs) {
      DistinctSnoc(Names(fs), name);
    }
  }

  /** `obj[key] = ''` on an object listing `keys`. */
  function AddKey(keys: seq<string>, key: string): (r: seq<string>)
    ensures forall k :: k in r <==> k in keys || k == key
    ensures Distinct(keys) ==> Distinct(r)
  {
    if key in keys then keys else keys + [key]
  }

  // ---------------------------------------------------------------------
  // readEntityFields

  /** A nested context is open when `obj` is truthy: set and non-empty. */
  predicate Active(current: Option<string>) {
    current.Some? && current.value != ""
  }

  /** The parser's state between lines: `fields` and `obj`. */
  datatype ParseState = ParseState(fields: Fields, current: Option<string>)

  /** An open context always names a nested entry. */
  predicate Inv(st: ParseState) {
    Active(st.current) ==> Lookup(st.fields, st.current.value).Some? && Lookup(st.fields, st.current.value).value.Nested?
  }

  const Start := ParseState([], None)

  /** Lines the parser acts on: a `?:` field line that is neither the `id`
      field nor the constructor. */
  predicate Accepted(line: string) {
    Has(line, "?:") && !Has(line, " id?:") && !Has(line, "constructor")
  }

  /** The trimmed text before the first `?:`. */
  function FieldName(line: string): string
    requires Has(line, "?:")
  {
    Trim(line[..IndexOf(line, "?:")])
  }

  /** `fields[obj][name] = ''` when a context is open, else `fields[name] = ''`. */
  function AddField(fs: Fields, current: Option<string>, name: string): (r: Fields)
    requires Inv(ParseState(fs, current))
    ensures Inv(ParseState(r, current))
    ensures Distinct(Names(fs)) ==> Distinct(Names(r))
  {
    PutDistinctAll(fs);
    if Active(current) then
      var keys := Lookup(fs, current.value).value.keys;
      Put(fs, current.value, Nested(AddKey(keys, name)))
    else Put(fs, name, Leaf)
  }

  lemma PutDistinctAll(fs: Fields)
    ensures Distinct(Names(fs)) ==> forall name, e :: Distinct(Names(Put(fs, name, e)))
  {
    if Distinct(Names(fs)) {
      forall name, e ensures Distinct(Names(Put(fs, name, e))) {
        PutDistinct(fs, name, e);
      }
    }
  }

  /** One pass of the loop over the entity source's lines. */
  function Step(st: ParseState, line: string): (r: ParseState)
    requires Inv(st)
    ensures Inv(r)
    ensures Distinct(Names(st.fields)) ==> Distinct(Names(r.fields))
    ensures !Accepted(line) ==> r == st
  {
    if !Accepted(line) then st
    else
      var name := FieldName(line);
      var current := if Has(line, "}") then None else st.current;
      if !Has(line, "{") then ParseState(AddField(st.fields, current, name), current)
      else
        PutDistinctAll(st.fields);
        ParseState(Put(st.fields, name, Nested([])), Some(name))
  }

  /** The loop from state `st` over `lines`. */
  function ParseFrom(st: ParseState, lines: seq<string>): (r: ParseState)
    requires Inv(st)
    ensures Inv(r)
    ensures Distinct(Names(st.fields)) ==> Distinct(Names(r.fields))
    decreases |lines|
  {
    if lines == [] then st else ParseFrom(Step(st, lines[0]), lines[1..])
  }

  /** `readEntityFields()`: the entity file's text, or None when reading it
      fails (the method then returns null). */
  function ReadEntityFields(source: Option<string>): (r: Option<Fields>)
    ensures r.Some? <==> source.Some?
    ensures r.Some? ==> Distinct(Names(r.value))
  {
    match source
    case None => None
    case Some(text) => Some(ParseFrom(Start, SplitLines(text)).fields)
  }

  /** Parsing is a left fold: the lines can be consumed in any split. */
  lemma {:induction false} ParseAppend(st: ParseState, a: seq<string>, b: seq<string>)
    requires Inv(st)
    ensures ParseFrom(st, a + b) == ParseFrom(ParseFrom(st, a), b)
    decreases |a|
  {
    if a == [] {
      assert a + b == b;
    } else {
      assert (a + b)[0] == a[0];
      assert (a + b)[1..] == a[1..] + b;
      ParseAppend(Step(st, a[0]), a[1..], b);
    }
  }

  /** A line without `?:`, or holding ` id?:` or `constructor`, changes
      neither the fields nor the open context, wherever it occurs. */
  lemma IgnoredLineInvisible(st: ParseState, a: seq<string>, line: string, b: seq<string>)
    requires Inv(st) && !Accepted(line)
    ensures ParseFrom(st, a + [line] + b) == ParseFrom(st, a + b)
  {
    ParseAppend(st, a, [line] + b);
    ParseAppend(st, a, b);
    assert a + [line] + b == a + ([line] + b);
    var mid := ParseFrom(st, a);
    assert ParseFrom(mid, [line] + b) == ParseFrom(Step(mid, line), b) by {
      assert ([line] + b)[1..] == b;
    }
  }

  /** What one accepted line does to the table and the context. */
  lemma StepEffect(st: ParseState, line: string)
    requires Inv(st) && Accepted(line)
    ensures var r := Step(st, line);
            var name := FieldName(line);
            && (Has(line, "{") ==>
                  && r.current == Some(name)
                  && Lookup(r.fields, name) == Some(Nested([]))
                  && forall m :: m != name ==> Lookup(r.fields, m) == Lookup(st.fields, m))
            && (Has(line, "}") && !Has(line, "{") ==>
                  && r.current == None
                  && Lookup(r.fields, name) == Some(Leaf)
                  && forall m :: m != name ==> Lookup(r.fields, m) == Lookup(st.fields, m))
            && (!Has(line, "}") && !Has(line, "{") && Active(st.current) ==>
                  && r.current == st.current
                  && Lookup(r.fields, st.current.value).Some?
                  && Lookup(r.fields, st.current.value).value.Nested?
                  && name in Lookup(r.fields, st.current.value).value.keys
                  && Names(r.fields) == Names(st.fields))
            && (!Has(line, "}") && !Has(line, "{") && !Active(st.current) ==>
                  && r.current == st.current
                  && Lookup(r.fields, name) == Some(Leaf)
                  && forall m :: m != name ==> Lookup(r.fields, m) == Lookup(st.fields, m))
  {
  }

  /** The names the accepted lines declare, in order. */
  function DeclaredNames(lines: seq<string>): seq<string> {
    if lines == [] then []
    else if Accepted(lines[0]) then [FieldName(lines[0])] + DeclaredNames(lines[1..])
    else DeclaredNames(lines[1..])
  }

  /** Appends the names of `ns` not yet present, in first-occurrence order. */
  function AppendNew(names: seq<string>, ns: seq<string>): seq<string>
    decreases |ns|
  {
    if ns == [] then names
    else if ns[0] in names then AppendNew(names, ns[1..])
    else AppendNew(names + [ns[0]], ns[1..])
  }

  /** Without braces the parser builds a flat table: every declared name
      maps to `''`, keys appear in first-declaration order, and no context
      opens. */
  lemma {:induction false} FlatEntity(st: ParseState, lines: seq<string>)
    requires Inv(st) && !Active(st.current)
    requires forall i :: 0 <= i < |lines| ==> !Has(lines[i], "{")
    ensures var r := ParseFrom(st, lines);
            && !Active(r.current)
            && Names(r.fields) == AppendNew(Names(st.fields), DeclaredNames(lines))
            && forall n :: Lookup(r.fields, n) == (if n in DeclaredNames(lines) then Some(Leaf) else Lookup(st.fields, n))
    decreases |lines|
  {
    if lines != [] {
      var next := Step(st, lines[0]);
      assert !Active(next.current);
      FlatEntity(next, lines[1..]);
    }
  }

  /** As written, a closing brace ends the nested context only on a line
      that also holds `?:`. A bare `};` line is skipped, so the next plain
      field is filed inside the still-open object. */
  lemma BareCloseKeepsContext(st: ParseState, close: string, next: string)
    requires Inv(st) && Active(st.current)
    requires Has(close, "}") && !Has(close, "?:")
    requires Accepted(next) && !Has(next, "{") && !Has(next, "}")
    ensures var r := ParseFrom(st, [close, next]);
            && r.current == st.current
            && Lookup(r.fields, st.current.value).Some?
            && Lookup(r.fields, st.current.value).value.Nested?
            && FieldName(next) in Lookup(r.fields, st.current.value).value.keys
            && Names(r.fields) == Names(st.fields)
  {
    var mid := Step(st, close);
    assert [close, next][1..] == [next];
    assert ParseFrom(st, [close, next]) == ParseFrom(mid, [next]);
    assert ParseFrom(mid, [next]) == Step(mid, next);
    StepEffect(st, next);
  }

  /** The loop as evidently intended: any line holding `}` closes the
      nested object, whether or not it declares a field. */
  function StepClosing(st: ParseState, line: string): (r: ParseState)
    requires Inv(st)
    ensures Inv(r)
    ensures Distinct(Names(st.fields)) ==> Distinct(Names(r.fields))
  {
    var st' := if Has(line, "}") then st.(current := None) else st;
    Step(st', line)
  }

  function ParseClosingFrom(st: ParseState, lines: seq<string>): (r: ParseState)
    requires Inv(st)
    ensures Inv(r)
    ensures Distinct(Names(st.fields)) ==> Distinct(Names(r.fields))
    decreases |lines|
  {
    if lines == [] then st else ParseClosingFrom(StepClosing(st, lines[0]), lines[1..])
  }

  function ReadEntityFieldsClosing(source: Option<string>): (r: Option<Fields>)
    ensures r.Some? <==> source.Some?
    ensures r.Some? ==> Distinct(Names(r.value))
  {
    match source
    case None => None
    case Some(text) => Some(ParseClosingFrom(Start, SplitLines(text)).fields)
  }

  /** With the correction a closing-brace line always closes the object,
      so the plain field after it lands at top level with value `''`. */
  lemma ClosingBraceReturnsToTop(st: ParseState, close: string, next: string)
    requires Inv(st)
    requires Has(close, "}") && !Has(close, "{")
    requires Accepted(next) && !Has(next, "{") && !Has(next, "}")
    ensures var r := ParseClosingFrom(st, [close, next]);
            && !Active(r.current)
            && Lookup(r.fields, FieldName(next)) == Some(Leaf)
  {
    var mid := StepClosing(st, close);
    assert !Active(mid.current);
    assert [close, next][1..] == [next];
    assert ParseClosingFrom(st, [close, next]) == ParseClosingFrom(mid, [next]);
    assert ParseClosingFrom(mid, [next]) == StepClosing(mid, next);
    StepEffect(mid, next);
  }

  /** The correction changes nothing on lines without a closing brace. */
  lemma {:induction false} ClosingAgreesWithoutBraces(st: ParseState, lines: seq<string>)
    requires Inv(st)
    requires forall i :: 0 <= i < |lines| ==> !Has(lines[i], "}")
    ensures ParseClosingFrom(st, lines) == ParseFrom(st, lines)
    decreases |lines|
  {
    if lines != [] {
      ClosingAgreesWithoutBraces(Step(st, lines[0]), lines[1..]);
    }
  }

  // ---------------------------------------------------------------------
  // routeValidation

  const Indent := "      "
  const InnerIndent := "        "
  const KeySep := ": "
  const StringCall := "Joi.string()"
  const ObjectCall := "Joi.object({"
  const ObjectClose := "      })"
  const Required := ".required()"
  const Comma := ","
  const Newline := "\n"

  function Req(required: bool): string {
    if required then Required else ""
  }

  /** The Joi line of one plain key, indented by `indent`. */
  function KeyLine(indent: string, key: string, required: bool): string {
    indent + key + KeySep + StringCall + Req(required) + Comma + Newline
  }

  /** The inner lines of a nested object, one per key in order. */
  function InnerLines(keys: seq<string>, required: bool): string {
    if keys == [] then []
    else KeyLine(InnerIndent, keys[0], required) + InnerLines(keys[1..], required)
  }

  predicate StartsWith(s: string, pre: string) {
    |pre| <= |s| && s[..|pre|] == pre
  }

  lemma PrefixOfConcat(a: string, b: string)
    ensures StartsWith(a + b, a)
  {
    assert (a + b)[..|a|] == a;
  }

  lemma StartsWithConcat(a: string, b: string, pre: string)
    requires StartsWith(a, pre)
    ensures StartsWith(a + b, pre)
  {
    assert (a + b)[..|pre|] == a[..|pre|];
  }

  /** The text one field contributes to the celebrate body schema; every
      entry opens with its key at six spaces' indentation. */
  function EntryText(f: Field, required: bool): (r: string)
    ensures StartsWith(r, Indent + f.name + KeySep)
  {
    var head := Indent + f.name + KeySep;
    match f.entry
    case Leaf =>
      PrefixOfConcat(head, StringCall + Req(required) + Comma + Newline);
      KeyLine(Indent, f.name, required)
    case Nested(keys) =>
      PrefixOfConcat(head, ObjectCall + Newline + InnerLines(keys, required) + ObjectClose + Req(required) + Comma + Newline);
      head + ObjectCall + Newline + InnerLines(keys, required) + ObjectClose + Req(required) + Comma + Newline
  }

  /** `routeValidation(fields, required)`: the entries in table order, so
      the text is empty exactly for an empty table and otherwise opens
      with the first key. */
  function RouteValidation(fs: Fields, required: bool): (r: string)
    ensures r == [] <==> fs == []
    ensures fs != [] ==> StartsWith(r, Indent + fs[0].name + KeySep)
  {
    if fs == [] then []
    else
      var first := EntryText(fs[0], required);
      StartsWithConcat(first, RouteValidation(fs[1..], required), Indent + fs[0].name + KeySep);
      first + RouteValidation(fs[1..], required)
  }

  predicate EndsWith(s: string, suf: string) {
    |suf| <= |s| && s[|s| - |suf|..] == suf
  }

  /** Emission is entry by entry: the text of a concatenated table is the
      concatenation of the texts. */
  lemma {:induction false} RouteValidationAppend(a: Fields, b: Fields, required: bool)
    ensures RouteValidation(a + b, required) == RouteValidation(a, required) + RouteValidation(b, required)
    decreases |a|
  {
    if a == [] {
      assert a + b == b;
    } else {
      assert (a + b)[0] == a[0] && (a + b)[1..] == a[1..] + b;
      RouteValidationAppend(a[1..], b, required);
    }
  }

  /** A line `pre + Req(required) + ",\n"` ends in `.required(),\n`
      exactly when `required` is set, given that `pre` does not end in
      `d` followed by two characters. */
  lemma RequiredSuffix(pre: string, required: bool)
    requires |pre| >= 3 && pre[|pre| - 3] != 'd'
    ensures EndsWith(pre + Req(required) + Comma + Newline, Required + Comma + Newline) <==> required
  {
    var s := pre + Req(required) + Comma + Newline;
    var suf := Required + Comma + Newline;
    if required {
      assert s == pre + suf;
      assert s[|s| - |suf|..] == suf;
    } else {
      assert s[|s| - 5] == pre[|pre| - 3];
      assert suf[8] == 'd';
    }
  }

  /** Every entry ends in `.required(),` exactly when `required` is set. */
  lemma EntryEnd(f: Field, required: bool)
    ensures EndsWith(EntryText(f, required), Required + Comma + Newline) <==> required
  {
    match f.entry {
      case Leaf =>
        var pre := Indent + f.name + KeySep + StringCall;
        assert pre[|pre| - 3] == StringCall[9] == 'g';
        RequiredSuffix(pre, required);
      case Nested(keys) =>
        var pre := Indent + f.name + KeySep + ObjectCall + Newline + InnerLines(keys, required) + ObjectClose;
        assert pre[|pre| - 3] == ObjectClose[5] == ' ';
        RequiredSuffix(pre, required);
    }
  }

  /** The number of lines a table emits: one per plain key, and the
      opening line, one line per inner key and the closing line per
      nested object. */
  function LineCount(fs: Fields): nat {
    if fs == [] then 0 else EntryLines(fs[0]) + LineCount(fs[1..])
  }

  function EntryLines(f: Field): nat {
    match f.entry
    case Leaf => 1
    case Nested(keys) => |keys| + 2
  }

  /** No key of the field, inner keys included, holds a line break. */
  predicate SingleLine(f: Field) {
    '\n' !in f.name && (f.entry.Nested? ==> forall k :: k in f.entry.keys ==> '\n' !in k)
  }

  predicate SingleLineKeys(fs: Fields) {
    forall i :: 0 <= i < |fs| ==> SingleLine(fs[i])
  }

  /** Line breaks in `s`. */
  function Breaks(s: string): nat {
    multiset(s)['\n']
  }

  lemma PiecesHaveNoBreaks(required: bool)
    ensures Breaks(Indent) == 0 && Breaks(InnerIndent) == 0 && Breaks(KeySep) == 0
    ensures Breaks(StringCall) == 0 && Breaks(ObjectCall) == 0 && Breaks(ObjectClose) == 0
    ensures Breaks(Req(required)) == 0 && Breaks(Comma) == 0
    ensures Breaks(Newline) == 1
  {
    IndentBreaks();
    CallBreaks();
    PunctuationBreaks();
  }

  lemma NoBreaks(s: string)
    requires '\n' !in s
    ensures Breaks(s) == 0
  {
  }

  lemma IndentBreaks()
    ensures Breaks(Indent) == 0 && Breaks(InnerIndent) == 0 && Breaks(ObjectClose) == 0
  {
    assert '\n' !in Indent;
    assert '\n' !in InnerIndent;
    assert '\n' !in ObjectClose;
  }

  lemma CallBreaks()
    ensures Breaks(StringCall) == 0 && Breaks(ObjectCall) == 0 && Breaks(Required) == 0
  {
    StringCallBreaks();
    ObjectCallBreaks();
    RequiredBreaks();
  }

  lemma StringCallBreaks()
    ensures Breaks(StringCall) == 0
  {
    assert '\n' !in StringCall;
    NoBreaks(StringCall);
  }

  lemma ObjectCallBreaks()
    ensures Breaks(ObjectCall) == 0
  {
    assert '\n' !in ObjectCall;
    NoBreaks(ObjectCall);
  }

  lemma RequiredBreaks()
    ensures Breaks(Required) == 0
  {
    assert '\n' !in Required;
    NoBreaks(Required);
  }

  lemma PunctuationBreaks()
    ensures Breaks(KeySep) == 0 && Breaks(Comma) == 0 && Breaks([]) == 0 && Breaks(Newline) == 1
  {
    assert '\n' !in KeySep;
    assert '\n' !in Comma;
    assert multiset(Newline) == multiset{'\n'};
  }

  lemma KeyLineBreaks(indent: string, key: string, required: bool)
    requires Breaks(indent) == 0 && '\n' !in key
    ensures Breaks(KeyLine(indent, key, required)) == 1
  {
    PiecesHaveNoBreaks(required);
  }

  lemma {:induction false} InnerLineBreaks(keys: seq<string>, required: bool)
    requires forall k :: k in keys ==> '\n' !in k
    ensures Breaks(InnerLines(keys, required)) == |keys|
    decreases |keys|
  {
    if keys != [] {
      PiecesHaveNoBreaks(required);
      KeyLineBreaks(InnerIndent, keys[0], required);
      InnerLineBreaks(keys[1..], required);
    }
  }

  /** A nested object emits its opening line, its inner lines and its
      closing line. */
  lemma NestedBreaks(f: Field, required: bool)
    requires f.entry.Nested? && '\n' !in f.name
    requires forall k :: k in f.entry.keys ==> '\n' !in k
    ensures Breaks(EntryText(f, required)) == |f.entry.keys| + 2
  {
    var inner := InnerLines(f.entry.keys, required);
    InnerLineBreaks(f.entry.keys, required);
    PiecesHaveNoBreaks(required);
    NoBreaks(f.name);
    assert EntryText(f, required) == Indent + f.name + KeySep + ObjectCall + Newline + inner + ObjectClose + Req(required) + Comma + Newline;
    WrapBreaks(Indent, f.name, KeySep, ObjectCall, Newline, inner, ObjectClose, Req(required), Comma);
  }

  /** The breaks of a nested entry's text, with its pieces left abstract. */
  lemma WrapBreaks(indent: string, name: string, sep: string, call: string, nl: string, inner: string, close: string, req: string, comma: string)
    requires Breaks(indent) == 0 && Breaks(name) == 0 && Breaks(sep) == 0 && Breaks(call) == 0
    requires Breaks(nl) == 1 && Breaks(close) == 0 && Breaks(req) == 0 && Breaks(comma) == 0
    ensures Breaks(indent + name + sep + call + nl + inner + close + req + comma + nl) == Breaks(inner) + 2
  {
  }

  lemma BreaksConcat(a: string, b: string)
    ensures Breaks(a + b) == Breaks(a) + Breaks(b)
  {
  }

  lemma EntryBreaks(f: Field, required: bool)
    requires SingleLine(f)
    ensures Breaks(EntryText(f, required)) == EntryLines(f)
  {
    if f.entry.Leaf? {
      PiecesHaveNoBreaks(required);
      KeyLineBreaks(Indent, f.name, required);
    } else {
      NestedBreaks(f, required);
    }
  }

  lemma SingleLineTail(fs: Fields)
    requires fs != [] && SingleLineKeys(fs)
    ensures SingleLineKeys(fs[1..])
  {
    forall i | 0 <= i < |fs[1..]|
      ensures fs[1..][i] == fs[i + 1]
    {
    }
  }

  /** The emitted text has exactly LineCount line breaks. */
  lemma {:induction false} RouteValidationLines(fs: Fields, required: bool)
    requires SingleLineKeys(fs)
    ensures Breaks(RouteValidation(fs, required)) == LineCount(fs)
    decreases |fs|
  {
    if fs != [] {
      var head := EntryText(fs[0], required);
      var tail := RouteValidation(fs[1..], required);
      assert SingleLine(fs[0]);
      EntryBreaks(fs[0], required);
      SingleLineTail(fs);
      RouteValidationLines(fs[1..], required);
      BreaksConcat(head, tail);
    }
  }

  // ---------------------------------------------------------------------
  // The emitted text read back line by line

  /** One Joi line of a plain key, without its line break. */
  function KeyText(indent: string, key: string, required: bool): string {
    indent + key + KeySep + StringCall + Req(required) + Comma
  }

  /** The inner lines of a nested object: line i declares key i. */
  function InnerLineSeq(keys: seq<string>, required: bool): (ls: seq<string>)
    ensures |ls| == |keys|
    ensures forall i :: 0 <= i < |keys| ==> ls[i] == KeyText(InnerIndent, keys[i], required)
  {
    seq(|keys|, i requires 0 <= i < |keys| => KeyText(InnerIndent, keys[i], required))
  }

  /** The lines one field contributes: its own line for a plain field; for
      a nested object the opening line, one line per inner key in order
      and the closing line. */
  function EntryLineSeq(f: Field, required: bool): seq<string> {
    match f.entry
    case Leaf => [KeyText(Indent, f.name, required)]
    case Nested(keys) =>
      [Indent + f.name + KeySep + ObjectCall] + InnerLineSeq(keys, required) + [ObjectClose + Req(required) + Comma]
  }

  /** The lines of the whole schema body, field by field in table order. */
  function RouteLineSeq(fs: Fields, required: bool): seq<string> {
    if fs == [] then [] else EntryLineSeq(fs[0], required) + RouteLineSeq(fs[1..], required)
  }

  /** Lines written one after the other, each followed by a line break. */
  function Terminated(ls: seq<string>): string {
    if ls == [] then [] else ls[0] + Newline + Terminated(ls[1..])
  }

  lemma {:induction false} TerminatedAppend(a: seq<string>, b: seq<string>)
    ensures Terminated(a + b) == Terminated(a) + Terminated(b)
    decreases |a|
  {
    if a == [] {
      assert a + b == b;
    } else {
      assert (a + b)[0] == a[0] && (a + b)[1..] == a[1..] + b;
      TerminatedAppend(a[1..], b);
    }
  }

  /** Splitting after a line without breaks peels that line off. */
  lemma SplitAfterLine(x: string, rest: string)
    requires '\n' !in x
    ensures SplitLines(x + Newline + rest) == [x] + SplitLines(rest)
  {
    var s := x + Newline + rest;
    assert s[|x|..|x| + 1] == "\n";
    assert OccursAt(s, "\n", |x|);
    forall j | 0 <= j < |x|
      ensures !OccursAt(s, "\n", j)
    {
      assert s[j..j + 1] == [x[j]] && x[j] in x;
    }
    var i := IndexOf(s, "\n");
    assert i == |x|;
    assert s[..|x|] == x && s[|x| + 1..] == rest;
    SplitLinesCons(s, i);
  }

  lemma {:induction false} SplitTerminated(ls: seq<string>, rest: string)
    requires forall i :: 0 <= i < |ls| ==> '\n' !in ls[i]
    ensures SplitLines(Terminated(ls) + rest) == ls + SplitLines(rest)
    decreases |ls|
  {
    if ls != [] {
      var head, lines := ls[0], ls[1..];
      var tail := Terminated(lines) + rest;
      var after := SplitLines(rest);
      UnfoldTerminated(ls, rest);
      NoBreakTail(ls);
      SplitAfterLine(head, tail);
      SplitTerminated(lines, rest);
      ConsAppend(head, lines, after);
    } else {
      assert Terminated(ls) + rest == rest;
    }
  }

  /** The first line of a non-empty list, peeled off its text. */
  lemma UnfoldTerminated(ls: seq<string>, rest: string)
    requires ls != []
    ensures Terminated(ls) + rest == ls[0] + Newline + (Terminated(ls[1..]) + rest)
  {
    var t := Terminated(ls[1..]);
    assert Terminated(ls) == ls[0] + Newline + t;
    Assoc(ls[0] + Newline, t, rest);
  }

  lemma NoBreakTail(ls: seq<string>)
    requires ls != [] && forall i :: 0 <= i < |ls| ==> '\n' !in ls[i]
    ensures '\n' !in ls[0]
    ensures forall i :: 0 <= i < |ls[1..]| ==> '\n' !in ls[1..][i]
    ensures ls == [ls[0]] + ls[1..]
  {
    forall i | 0 <= i < |ls[1..]|
      ensures '\n' !in ls[1..][i]
    {
      assert ls[1..][i] == ls[i + 1];
    }
  }

  lemma Assoc<T>(x: seq<T>, y: seq<T>, z: seq<T>)
    ensures (x + y) + z == x + (y + z)
  {
  }

  lemma ConsAppend<T>(h: T, a: seq<T>, b: seq<T>)
    ensures [h] + (a + b) == ([h] + a) + b
  {
  }

  lemma {:induction false} InnerLinesTerminated(keys: seq<string>, required: bool)
    ensures InnerLines(keys, required) == Terminated(InnerLineSeq(keys, required))
    decreases |keys|
  {
    if keys != [] {
      var ls := InnerLineSeq(keys, required);
      assert ls[1..] == InnerLineSeq(keys[1..], required);
      InnerLinesTerminated(keys[1..], required);
    }
  }

  lemma EntryTerminated(f: Field, required: bool)
    ensures EntryText(f, required) == Terminated(EntryLineSeq(f, required))
  {
    match f.entry
    case Leaf =>
      assert Terminated(EntryLineSeq(f, required)) == KeyText(Indent, f.name, required) + Newline;
    case Nested(keys) =>
      var open, close := Indent + f.name + KeySep + ObjectCall, ObjectClose + Req(required) + Comma;
      var inner := InnerLines(keys, required);
      InnerLinesTerminated(keys, required);
      WrapTerminated(open, InnerLineSeq(keys, required), close, inner);
      Regroup(open + Newline + inner, ObjectClose, Req(required), Comma);
  }

  /** The lines of a nested object, with its pieces left abstract. */
  lemma WrapTerminated(open: string, lines: seq<string>, close: string, inner: string)
    requires inner == Terminated(lines)
    ensures Terminated([open] + lines + [close]) == open + Newline + inner + close + Newline
  {
    TerminatedAppend([open] + lines, [close]);
    TerminatedAppend([open], lines);
    assert Terminated([close]) == close + Newline;
    assert Terminated([open]) == open + Newline;
    Regroup(open + Newline + inner, close, Newline, []);
  }

  lemma Regroup(y: string, a: string, b: string, c: string)
    ensures y + (a + b + c) == y + a + b + c
  {
  }

  lemma {:induction false} RouteValidationTerminated(fs: Fields, required: bool)
    ensures RouteValidation(fs, required) == Terminated(RouteLineSeq(fs, required))
    decreases |fs|
  {
    if fs != [] {
      EntryTerminated(fs[0], required);
      RouteValidationTerminated(fs[1..], required);
      TerminatedAppend(EntryLineSeq(fs[0], required), RouteLineSeq(fs[1..], required));
    }
  }

  lemma KeyTextSingle(indent: string, key: string, required: bool)
    requires '\n' !in indent && '\n' !in key
    ensures '\n' !in KeyText(indent, key, required)
  {
  }

  lemma EntryLinesSingle(f: Field, required: bool)
    requires SingleLine(f)
    ensures forall i :: 0 <= i < |EntryLineSeq(f, required)| ==> '\n' !in EntryLineSeq(f, required)[i]
  {
    match f.entry
    case Leaf =>
      KeyTextSingle(Indent, f.name, required);
    case Nested(keys) =>
      var inner := InnerLineSeq(keys, required);
      forall i | 0 <= i < |inner|
        ensures '\n' !in inner[i]
      {
        assert keys[i] in keys;
        KeyTextSingle(InnerIndent, keys[i], required);
      }
  }

  lemma {:induction false} RouteLinesSingle(fs: Fields, required: bool)
    requires SingleLineKeys(fs)
    ensures forall i :: 0 <= i < |RouteLineSeq(fs, required)| ==> '\n' !in RouteLineSeq(fs, required)[i]
    decreases |fs|
  {
    if fs != [] {
      assert SingleLine(fs[0]);
      EntryLinesSingle(fs[0], required);
      SingleLineTail(fs);
      RouteLinesSingle(fs[1..], required);
    }
  }

  /** Read back with `split('\n')`, a nested object's inner text is one
      line per inner key, in order: line i is key i at eight spaces'
      indentation followed by `: Joi.string()`, `.required()` when asked,
      and a comma. The last piece is the empty text after the final break. */
  lemma InnerLinesSplit(keys: seq<string>, required: bool)
    requires forall k :: k in keys ==> '\n' !in k
    ensures SplitLines(InnerLines(keys, required)) == InnerLineSeq(keys, required) + [""]
  {
    var ls := InnerLineSeq(keys, required);
    forall i | 0 <= i < |ls|
      ensures '\n' !in ls[i]
    {
      assert keys[i] in keys;
      KeyTextSingle(InnerIndent, keys[i], required);
    }
    InnerLinesTerminated(keys, required);
    SplitTerminated(ls, "");
    assert Terminated(ls) + "" == Terminated(ls);
  }

  /** Read back with `split('\n')`, the whole schema body is exactly the
      reference lines: field by field, a plain field's own line, or a
      nested object's opening line, its inner key lines and its closing
      line; then the empty text after the final break. */
  lemma RouteValidationSplit(fs: Fields, required: bool)
    requires SingleLineKeys(fs)
    ensures SplitLines(RouteValidation(fs, required)) == RouteLineSeq(fs, required) + [""]
  {
    var ls := RouteLineSeq(fs, required);
    RouteValidationTerminated(fs, required);
    RouteLinesSingle(fs, required);
    SplitTerminated(ls, "");
    assert Terminated(ls) + "" == Terminated(ls);
  }
}

=== FILE: generator_scenarios.dfy ===
/** The field parser on the nested `location` object of the Company
    entity (src/api/entities/Company.ts:50-58), as written and corrected. */
module GeneratorScenarios {
  import opened Wrappers
  import opened Generator

  /** The nested object, its closing line, and the field that follows. */
  function CompanyLines(): seq<string> {
    ["  location?: {", "    locality?: string;", "  };", "  industry?: string;"]
  }

  /** The first occurrence is found when the pattern's first character
      does not appear earlier. */
  lemma FirstAt(l: string, pat: string, i: nat)
    requires OccursAt(l, pat, i) && pat != [] && pat[0] !in l[..i]
    ensures IndexOf(l, pat) == i
  {
    var r := IndexOf(l, pat);
    assert r != -1 && r <= i;
    assert l[r..r + |pat|][0] == l[r];
  }

  lemma {:induction false} LeadingPad(pad: string, w: string)
    requires forall j :: 0 <= j < |pad| ==> IsSpace(pad[j])
    requires w != [] && !IsSpace(w[0])
    ensures LeadingSpaces(pad + w) == |pad|
    decreases |pad|
  {
    if pad != [] {
      assert (pad + w)[1..] == pad[1..] + w;
      LeadingPad(pad[1..], w);
    }
  }

  /** Indentation before a word is trimmed away. */
  lemma TrimPad(pad: string, w: string)
    requires forall j :: 0 <= j < |pad| ==> IsSpace(pad[j])
    requires w != [] && !IsSpace(w[0]) && !IsSpace(w[|w| - 1])
    ensures Trim(pad + w) == w
  {
    LeadingPad(pad, w);
    assert (pad + w)[|pad + w| - 1] == w[|w| - 1];
    assert TrailingStart(pad + w) == |pad + w|;
    assert (pad + w)[|pad|..] == w;
  }

  /** A `?:` line whose name holds no blank has no ` id?:` marker. */
  lemma NoIdMarker(l: string, pad: string, name: string)
    requires l == pad + name + "?: string;"
    requires forall j :: 0 <= j < |pad| ==> IsSpace(pad[j])
    requires |name| >= 3 && ' ' !in name && '?' !in name
    ensures !Has(l, " id?:")
  {
    var i := |pad| + |name|;
    var tail := ": string;";
    assert l == pad + name + "?" + tail;
    assert '?' !in tail;
    forall j | 0 <= j && j + 5 <= |l|
      ensures !OccursAt(l, " id?:", j)
    {
      assert l[j..j + 5][0] == l[j] && l[j..j + 5][3] == l[j + 3];
      if j + 3 < |pad| {
        assert l[j + 3] == pad[j + 3];
      } else if j + 3 < i {
        assert l[j + 3] == name[j + 3 - |pad|];
      } else if j + 3 == i {
        assert l[j] == name[|name| - 3];
      } else {
        assert l[j + 3] == tail[j + 3 - i - 1];
      }
    }
  }

  /** `pad + name + "?: string;"`, with `c` the index of a letter of
      "constructor" missing from the line, declares the plain field `name`. */
  lemma PlainFieldLine(l: string, pad: string, name: string, c: nat)
    requires l == pad + name + "?: string;"
    requires forall j :: 0 <= j < |pad| ==> IsSpace(pad[j])
    requires |name| >= 3 && !IsSpace(name[0]) && !IsSpace(name[|name| - 1])
    requires ' ' !in name && '?' !in name && '{' !in name && '}' !in name
    requires c < |"constructor"| && "constructor"[c] !in l
    ensures Accepted(l) && !Has(l, "{") && !Has(l, "}") && FieldName(l) == name
  {
    var i := |pad| + |name|;
    assert l[i..i + 2] == "?:";
    assert l[..i] == pad + name;
    assert '?' !in pad;
    FirstAt(l, "?:", i);
    TrimPad(pad, name);
    CharAbsent(l, "{", 0);
    CharAbsent(l, "}", 0);
    CharAbsent(l, "constructor", c);
    NoIdMarker(l, pad, name);
  }

  lemma OpenLocationFacts(l: string)
    requires l == "  location?: {"
    ensures Accepted(l) && Has(l, "{") && !Has(l, "}") && FieldName(l) == "location"
  {
    assert OccursAt(l, "{", 13);
    assert l[10..12] == "?:";
    assert l[..10] == "  " + "location";
    FirstAt(l, "?:", 10);
    TrimPad("  ", "location");
    CharAbsent(l, "}", 0);
    CharAbsent(l, " id?:", 2);
    CharAbsent(l, "constructor", 6);
  }

  lemma LocalityFacts(l: string)
    requires l == "    locality?: string;"
    ensures Accepted(l) && !Has(l, "{") && !Has(l, "}") && FieldName(l) == "locality"
  {
    assert l == "    " + "locality" + "?: string;";
    PlainFieldLine(l, "    ", "locality", 6);
  }

  lemma CloseLocationFacts(l: string)
    requires l == "  };"
    ensures !Accepted(l) && !Has(l, "{") && Has(l, "}")
  {
    assert OccursAt(l, "}", 2);
    CharAbsent(l, "{", 0);
    CharAbsent(l, "?:", 0);
  }

  lemma IndustryFacts(l: string)
    requires l == "  industry?: string;"
    ensures Accepted(l) && !Has(l, "{") && !Has(l, "}") && FieldName(l) == "industry"
  {
    assert l == "  " + "industry" + "?: string;";
    PlainFieldLine(l, "  ", "industry", 0);
  }

  const LocationOpen := [Field("location", Nested([]))]
  const LocationWithLocality := [Field("location", Nested(["locality"]))]

  lemma OpenStep(st: ParseState, l: string)
    requires st == Start && l == "  location?: {"
    ensures Step(st, l) == StepClosing(st, l) == ParseState(LocationOpen, Some("location"))
  {
    OpenLocationFacts(l);
  }

  lemma LocalityStep(st: ParseState, l: string)
    requires st == ParseState(LocationOpen, Some("location")) && l == "    locality?: string;"
    ensures Step(st, l) == StepClosing(st, l) == ParseState(LocationWithLocality, Some("location"))
  {
    LocalityFacts(l);
    assert AddKey([], "locality") == ["locality"];
  }

  lemma CloseStep(st: ParseState, l: string)
    requires st == ParseState(LocationWithLocality, Some("location")) && l == "  };"
    ensures Step(st, l) == st
    ensures StepClosing(st, l) == ParseState(LocationWithLocality, None)
  {
    CloseLocationFacts(l);
  }

  lemma IndustryIntoLocation(l: string)
    requires l == "  industry?: string;"
    ensures Step(ParseState(LocationWithLocality, Some("location")), l).fields
            == [Field("location", Nested(["locality", "industry"]))]
  {
    IndustryFacts(l);
    assert AddKey(["locality"], "industry") == ["locality", "industry"];
  }

  lemma IndustryAtTop(l: string)
    requires l == "  industry?: string;"
    ensures StepClosing(ParseState(LocationWithLocality, None), l).fields
            == [Field("location", Nested(["locality"])), Field("industry", Leaf)]
  {
    IndustryFacts(l);
  }

  /** Four lines read one after another. */
  lemma ParseFour(st: ParseState, a: string, b: string, c: string, d: string)
    requires Inv(st)
    ensures ParseFrom(st, [a, b, c, d]) == Step(Step(Step(Step(st, a), b), c), d)
    ensures ParseClosingFrom(st, [a, b, c, d]) == StepClosing(StepClosing(StepClosing(StepClosing(st, a), b), c), d)
  {
    assert [a, b, c, d][1..] == [b, c, d];
    assert [b, c, d][1..] == [c, d];
    assert [c, d][1..] == [d];
    assert [d][1..] == [];
    var t1 := Step(st, a);
    var t2 := Step(t1, b);
    var t3 := Step(t2, c);
    assert ParseFrom(st, [a, b, c, d]) == ParseFrom(t1, [b, c, d]);
    assert ParseFrom(t1, [b, c, d]) == ParseFrom(t2, [c, d]);
    assert ParseFrom(t2, [c, d]) == ParseFrom(t3, [d]);
    var u1 := StepClosing(st, a);
    var u2 := StepClosing(u1, b);
    var u3 := StepClosing(u2, c);
    assert ParseClosingFrom(st, [a, b, c, d]) == ParseClosingFrom(u1, [b, c, d]);
    assert ParseClosingFrom(u1, [b, c, d]) == ParseClosingFrom(u2, [c, d]);
    assert ParseClosingFrom(u2, [c, d]) == ParseClosingFrom(u3, [d]);
  }

  /** The four Company lines, read by the parser as written. */
  lemma AbsorbsLines(l0: string, l1: string, l2: string, l3: string)
    requires l0 == "  location?: {" && l1 == "    locality?: string;"
    requires l2 == "  };" && l3 == "  industry?: string;"
    ensures ParseFrom(Start, [l0, l1, l2, l3]).fields == [Field("location", Nested(["locality", "industry"]))]
  {
    var s2 := ParseState(LocationWithLocality, Some("location"));
    OpenStep(Start, l0);
    LocalityStep(ParseState(LocationOpen, Some("location")), l1);
    CloseStep(s2, l2);
    IndustryIntoLocation(l3);
    ParseFour(Start, l0, l1, l2, l3);
  }

  /** The four Company lines, read by the corrected parser. */
  lemma ClosedLines(l0: string, l1: string, l2: string, l3: string)
    requires l0 == "  location?: {" && l1 == "    locality?: string;"
    requires l2 == "  };" && l3 == "  industry?: string;"
    ensures ParseClosingFrom(Start, [l0, l1, l2, l3]).fields == [Field("location", Nested(["locality"])), Field("industry", Leaf)]
  {
    var s2 := ParseState(LocationWithLocality, Some("location"));
    OpenStep(Start, l0);
    LocalityStep(ParseState(LocationOpen, Some("location")), l1);
    CloseStep(s2, l2);
    IndustryAtTop(l3);
    ParseFour(Start, l0, l1, l2, l3);
  }

  /** As written: the `};` line is skipped and `industry` is filed inside
      `location` instead of at top level. */
  lemma CompanyLocationAbsorbsIndustry(lines: seq<string>)
    requires lines == CompanyLines()
    ensures ParseFrom(Start, lines).fields == [Field("location", Nested(["locality", "industry"]))]
  {
    assert lines == [lines[0], lines[1], lines[2], lines[3]];
    AbsorbsLines(lines[0], lines[1], lines[2], lines[3]);
  }

  /** Corrected: the `};` line closes `location` and `industry` is a
      top-level field. */
  lemma CompanyLocationClosed(lines: seq<string>)
    requires lines == CompanyLines()
    ensures ParseClosingFrom(Start, lines).fields == [Field("location", Nested(["locality"])), Field("industry", Leaf)]
  {
    assert lines == [lines[0], lines[1], lines[2], lines[3]];
    ClosedLines(lines[0], lines[1], lines[2], lines[3]);
  }
}

=== FILE: job_scenarios.dfy ===
/** Small concrete stores worked through the model of `move`: a move to
    the top of a lane, the neighbour search that looks across lanes, and
    where a move to the top of a lane lands. Validation accepts every
    record. */
module JobScenarios {
  import opened Wrappers
  import opened Values
  import opened Sorting
  import opened Crud
  import opened JobService

  function AcceptAll(rec: Record): bool {
    true
  }

  /** A job of lane (board 10, column `column`) at `order`. */
  function JobAt(column: Id, order: int): Record {
    map["board" := Ref(10), BoardColumn := Ref(column), SortOrder := Num(order)]
  }

  /** Lane (10, 20) holding J1 = 1000, J2 = 2000, J3 = 3000. */
  function ThreeJobs(): Collection {
    Collection("Job", [Row(1, JobAt(20, 1000)), Row(2, JobAt(20, 2000)), Row(3, JobAt(20, 3000))], 4)
  }

  /** Moving J3 to the top: the neighbour is J1, the bounds are 0 and 1000,
      and J3 lands on 500, ahead of J1 and J2, which keep their places. */
  lemma MoveToTop(jobs: Collection)
    requires jobs == ThreeJobs()
    ensures jobs.Valid()
    ensures var r := Move(jobs, 3, 10, 20, None, false, Global, AcceptAll);
      && r.result.Ok?
      && r.jobs.rows[0] == jobs.rows[0]
      && r.jobs.rows[1] == jobs.rows[1]
      && r.jobs.rows[2].id == 3
      && Get(r.jobs.rows[2].rec, SortOrder) == Num(500)
  {
    TopBounds(jobs);
    var r := Move(jobs, 3, 10, 20, None, false, Global, AcceptAll);
    assert Midpoint(0, 1000) == 500;
    assert jobs.rows[2].id == 3;
  }

  /** The bounds of moving J3 to the top: 0 and J1's 1000. */
  lemma TopBounds(jobs: Collection)
    requires jobs == ThreeJobs()
    ensures jobs.Valid() && LowerBound(jobs, None) == Ok(0)
    ensures UpperBound(jobs, 3, 0, Global) == 1000
  {
    ThreeJobsValid(jobs);
    var hi := UpperBound(jobs, 3, 0, Global);
    var a, b, c := jobs.rows[0], jobs.rows[1], jobs.rows[2];
    JobAtFields(20, 1000);
    JobAtFields(20, 2000);
    assert Matches(Global, a) && Matches(Global, b);
    assert a in jobs.rows && Above(a, 3, 0, Global);
    forall x | x in jobs.rows && Above(x, 3, 0, Global)
      ensures Get(x.rec, SortOrder).n >= 1000
    {
      assert x == a || x == b || x == c;
    }
  }

  lemma ThreeJobsValid(jobs: Collection)
    requires jobs == ThreeJobs()
    ensures jobs.Valid()
  {
  }

  lemma JobAtFields(column: Id, order: int)
    ensures Get(JobAt(column, order), SortOrder) == Num(order)
    ensures Get(JobAt(column, order), BoardColumn) == Ref(column)
  {
  }

  /** Lane (10, 20) holds A = 1000 and C = 2000; job B of column 30 sits
      on 1001. */
  function CrowdedNeighbour(): Collection {
    Collection("Job", [Row(1, JobAt(20, 1000)), Row(2, JobAt(30, 1001)), Row(3, JobAt(20, 2000))], 4)
  }

  /** The lane (10, 20) of CrowdedNeighbour is already aligned. */
  lemma CrowdedLaneAligned(jobs: Collection)
    requires jobs == CrowdedNeighbour()
    ensures jobs.Valid()
    ensures LaneSorted(jobs, 10, 20) == [jobs.rows[0], jobs.rows[2]]
    ensures IsAligned(jobs, 10, 20)
  {
    assert jobs.Valid();
    assert InLane(jobs.rows[0], Ref(10), Ref(20)) && InLane(jobs.rows[2], Ref(10), Ref(20));
    assert !InLane(jobs.rows[1], Ref(10), Ref(20));
    assert !Before(jobs.rows[2], jobs.rows[0], SortOrder, true);
    LaneOfTwo(jobs, LaneSorted(jobs, 10, 20), 10, 20);
    AlignedListing(jobs);
  }

  lemma AlignedListing(jobs: Collection)
    requires jobs == CrowdedNeighbour()
    requires LaneSorted(jobs, 10, 20) == [jobs.rows[0], jobs.rows[2]]
    ensures IsAligned(jobs, 10, 20)
  {
  }

  /** A lane listing of a three-job store whose middle job is elsewhere. */
  lemma LaneOfTwo(jobs: Collection, lane: seq<Row>, board: Id, column: Id)
    requires jobs.Valid() && |jobs.rows| == 3
    requires lane == LaneSorted(jobs, board, column)
    requires InLane(jobs.rows[0], Ref(board), Ref(column)) && InLane(jobs.rows[2], Ref(board), Ref(column))
    requires !InLane(jobs.rows[1], Ref(board), Ref(column))
    requires !Before(jobs.rows[2], jobs.rows[0], SortOrder, true)
    ensures lane == [jobs.rows[0], jobs.rows[2]]
  {
    var expected := [jobs.rows[0], jobs.rows[2]];
    LaneSortedFacts(jobs, board, column);
    LaneOfTwoMembers(jobs, lane, board, column);
    assert forall i, j :: 0 <= i < j < |lane| ==> lane[i].id != lane[j].id;
    assert forall i, j :: 0 <= i < j < |lane| ==> lane[i] != lane[j];
    assert StrictlySortedBy(expected, SortOrder, true) by {
      assert !Before(expected[1], expected[0], SortOrder, true);
    }
    SortedUnique(lane, expected, SortOrder, true);
  }

  lemma LaneOfTwoMembers(jobs: Collection, lane: seq<Row>, board: Id, column: Id)
    requires |jobs.rows| == 3
    requires forall x :: x in lane <==> x in jobs.rows && InLane(x, Ref(board), Ref(column))
    requires InLane(jobs.rows[0], Ref(board), Ref(column)) && InLane(jobs.rows[2], Ref(board), Ref(column))
    requires !InLane(jobs.rows[1], Ref(board), Ref(column))
    ensures forall x :: x in lane <==> x in [jobs.rows[0], jobs.rows[2]]
  {
    forall x
      ensures x in lane <==> x in [jobs.rows[0], jobs.rows[2]]
    {
      if x in jobs.rows {
        assert x == jobs.rows[0] || x == jobs.rows[1] || x == jobs.rows[2];
      }
    }
  }

  /** Moving C after A with the neighbour search as written: B, in another
      column, is taken as the next job, so the bounds 1000 and 1001 leave
      no room; realigning lane (10, 20) changes nothing and the retry
      fails with 'Sort order alignment failed', although the lane itself
      has room between A and C. The store is left as it was. */
  lemma GlobalSearchStuck()
    ensures Move(CrowdedNeighbour(), 3, 10, 20, Some(1), false, Global, AcceptAll)
      == Moved(CrowdedNeighbour(), Err(AlignmentFailed))
  {
    var jobs := CrowdedNeighbour();
    CrowdedLaneAligned(jobs);
    assert jobs.rows[0] in jobs.rows && jobs.rows[0].id == 1;
    assert LowerBound(jobs, Some(1)) == Ok(1000);
    assert Matches(Global, jobs.rows[1]);
    assert Above(jobs.rows[1], 3, 1000, Global);
    assert UpperBound(jobs, 3, 1000, Global) == 1001;
    assert Stuck(jobs, 3, Some(1), Global);
    assert AlignSortOrder(jobs, 10, 20, AcceptAll) == Aligned(jobs);
  }

  /** The same move with the search narrowed to the lane: there is no lane
      job above A other than C itself, so the upper bound is the next
      multiple of 1000 and C lands on 1500. */
  lemma LaneSearchPlaces(jobs: Collection)
    requires jobs == CrowdedNeighbour()
    ensures var r := Move(jobs, 3, 10, 20, Some(1), false, LaneScope(10, 20), AcceptAll);
      && r.result.Ok?
      && r.jobs.rows[0] == jobs.rows[0]
      && r.jobs.rows[1] == jobs.rows[1]
      && Get(r.jobs.rows[2].rec, SortOrder) == Num(1500)
  {
    assert jobs.Valid();
    LaneSearchBounds(jobs);
    assert !Stuck(jobs, 3, Some(1), LaneScope(10, 20));
    assert HasId(jobs.rows, 3) by {
      assert jobs.rows[2].id == 3;
    }
  }

  lemma LaneSearchBounds(jobs: Collection)
    requires jobs == CrowdedNeighbour()
    ensures jobs.Valid()
    ensures LowerBound(jobs, Some(1)) == Ok(1000)
    ensures UpperBound(jobs, 3, 1000, LaneScope(10, 20)) == 2000
  {
    assert jobs.Valid();
    var scope := LaneScope(10, 20);
    LaneMatches(Ref(10), Ref(20));
    assert jobs.rows[0] in jobs.rows && jobs.rows[0].id == 1;
    forall x | x in jobs.rows
      ensures !Above(x, 3, 1000, scope)
    {
      assert x == jobs.rows[0] || x == jobs.rows[1] || x == jobs.rows[2];
      assert !InLane(jobs.rows[1], Ref(10), Ref(20));
    }
    assert NextSlot(1000) == 2000;
  }

  /** Where a move to the top of a lane lands. The neighbour search spans
      every lane, so the upper bound is the least positive sortOrder held
      by any other job, whatever its lane. When that is 1000, or no other
      job holds a positive one, the job lands on 500; this covers a move
      into an empty lane only under that condition on the other lanes. */
  lemma MoveIntoEmptyLane(jobs: Collection, id: Id, board: Id, column: Id, validate: Record -> bool)
    requires jobs.Valid() && HasId(jobs.rows, id)
    requires forall x :: x in jobs.rows && Above(x, id, 0, Global) ==> Get(x.rec, SortOrder).n >= Spacing
    requires (forall x :: x in jobs.rows ==> !Above(x, id, 0, Global))
      || exists x :: x in jobs.rows && Above(x, id, 0, Global) && Get(x.rec, SortOrder).n == Spacing
    requires MoveValidates(jobs, id, column, 500, validate)
    ensures var r := Move(jobs, id, board, column, None, false, Global, validate);
      && r.result.Ok?
      && forall i :: 0 <= i < |r.jobs.rows| && r.jobs.rows[i].id == id ==>
        Get(r.jobs.rows[i].rec, SortOrder) == Num(500) && Get(r.jobs.rows[i].rec, BoardColumn) == Ref(column)
  {
    TopBound(jobs, id);
    assert Midpoint(0, Spacing) == 500;
    assert !Stuck(jobs, id, None, Global);
    assert Placeable(jobs, id, column, None, Global, validate);
    var r := Move(jobs, id, board, column, None, false, Global, validate);
    MovedRow(jobs, r.jobs, id, column, 500);
  }

  lemma TopBound(jobs: Collection, id: Id)
    requires forall x :: x in jobs.rows && Above(x, id, 0, Global) ==> Get(x.rec, SortOrder).n >= Spacing
    requires (forall x :: x in jobs.rows ==> !Above(x, id, 0, Global))
      || exists x :: x in jobs.rows && Above(x, id, 0, Global) && Get(x.rec, SortOrder).n == Spacing
    ensures UpperBound(jobs, id, 0, Global) == Spacing
  {
    assert NextSlot(0) == 1000;
  }

  /** The one-job store: moving its job into the empty column 30 lands it on 500. */
  lemma OnlyJobToEmptyLane(jobs: Collection)
    requires jobs == Collection("Job", [Row(1, JobAt(20, 1000))], 2)
    ensures var r := Move(jobs, 1, 10, 30, None, false, Global, AcceptAll);
      && r.result.Ok?
      && Get(r.jobs.rows[0].rec, SortOrder) == Num(500)
      && Get(r.jobs.rows[0].rec, BoardColumn) == Ref(30)
  {
    assert jobs.Valid();
    forall x | x in jobs.rows
      ensures !Above(x, 1, 0, Global)
    {
      assert x == jobs.rows[0];
    }
    assert HasId(jobs.rows, 1) by {
      assert jobs.rows[0].id == 1;
    }
    MoveIntoEmptyLane(jobs, 1, 10, 30, AcceptAll);
  }

  /** A move to the top of a lane under the global search lands halfway to
      the least positive sortOrder `m` held by any other job, whatever its
      lane; the move into an empty lane is the case `m` = 1000. When
      `m` is 1 the bounds are adjacent and the move takes the realignment
      path instead. */
  lemma TopMoveHalvesLeast(jobs: Collection, id: Id, board: Id, column: Id, m: int, validate: Record -> bool)
    requires jobs.Valid() && HasId(jobs.rows, id) && m >= 2
    requires forall x :: x in jobs.rows && Above(x, id, 0, Global) ==> Get(x.rec, SortOrder).n >= m
    requires exists x :: x in jobs.rows && Above(x, id, 0, Global) && Get(x.rec, SortOrder).n == m
    requires MoveValidates(jobs, id, column, m / 2, validate)
    ensures var r := Move(jobs, id, board, column, None, false, Global, validate);
      && r.result.Ok?
      && forall i :: 0 <= i < |r.jobs.rows| && r.jobs.rows[i].id == id ==>
        Get(r.jobs.rows[i].rec, SortOrder) == Num(m / 2) && Get(r.jobs.rows[i].rec, BoardColumn) == Ref(column)
  {
    assert UpperBound(jobs, id, 0, Global) == m;
    assert Midpoint(0, m) == m / 2;
    assert !Stuck(jobs, id, None, Global);
    assert Placeable(jobs, id, column, None, Global, validate);
    var r := Move(jobs, id, board, column, None, false, Global, validate);
    MovedRow(jobs, r.jobs, id, column, m / 2);
  }

  /** After J3 of ThreeJobs has moved to the top of its lane on 500, moving
      J1 to the top of the empty column 30 lands it on 250, not 500: the
      search finds J3 in the other column, and 500 is the least positive
      sortOrder of the other jobs. */
  lemma EmptyLaneAfterTopMove(jobs: Collection)
    requires jobs == Collection("Job", [Row(1, JobAt(20, 1000)), Row(2, JobAt(20, 2000)), Row(3, JobAt(20, 500))], 4)
    ensures var r := Move(jobs, 1, 10, 30, None, false, Global, AcceptAll);
      && r.result.Ok?
      && Get(r.jobs.rows[0].rec, SortOrder) == Num(250)
  {
    assert jobs.Valid();
    var c := jobs.rows[2];
    JobAtFields(20, 500);
    assert c in jobs.rows && Above(c, 1, 0, Global);
    forall x | x in jobs.rows && Above(x, 1, 0, Global)
      ensures Get(x.rec, SortOrder).n >= 500
    {
      assert x == jobs.rows[1] || x == c;
    }
    assert HasId(jobs.rows, 1) by {
      assert jobs.rows[0].id == 1;
    }
    TopMoveHalvesLeast(jobs, 1, 10, 30, 500, AcceptAll);
    assert jobs.rows[0].id == 1;
  }
}

=== FILE: job_service.dfy ===
/** The job position engine (src/api/services/JobService.ts). Jobs are
    ordered inside a lane, the pair (board, boardColumn), by an integer
    `sortOrder`; new jobs go to the end of their lane, moves use midpoint
    insertion, and a lane is renumbered 1000, 2000, ... when no integer is
    left between two neighbours. */
module JobService {
  import opened Wrappers
  import opened Values
  import opened Sorting
  import opened Crud

  /** The gap a renumbered lane leaves between neighbours. */
  const Spacing: int := 1000

  const SortOrder := "sortOrder"
  const BoardColumn := "boardColumn"

  const OwnerMismatch := Http(500, "Job owner cannot be different to board owner")
  const AlignmentFailed := Http(500, "Sort order alignment failed")

  /** The lane query `{ board, boardColumn }`. */
  function LaneQuery(board: Value, column: Value): Query {
    [Eq("board", board), Eq(BoardColumn, column)]
  }

  predicate InLane(x: Row, board: Value, column: Value) {
    Get(x.rec, "board") == board && Get(x.rec, BoardColumn) == column
  }

  lemma LaneMatches(board: Value, column: Value)
    ensures forall x :: Matches(LaneQuery(board, column), x) <==> InLane(x, board, column)
  {
    forall x
      ensures Matches(LaneQuery(board, column), x) <==> InLane(x, board, column)
    {
      var q := LaneQuery(board, column);
      if InLane(x, board, column) {
        assert forall k :: 0 <= k < |q| ==> Holds(q[k], x);
      } else {
        assert !Holds(q[0], x) || !Holds(q[1], x);
      }
    }
  }

  /** How many stored jobs share the lane. */
  function LaneSize(jobs: Collection, board: Value, column: Value): nat {
    |set x | x in jobs.rows && InLane(x, board, column)|
  }

  lemma LaneCount(jobs: Collection, board: Value, column: Value)
    requires jobs.Valid()
    ensures Count(jobs, LaneQuery(board, column)) == LaneSize(jobs, board, column)
  {
    LaneMatches(board, column);
    assert (set x | x in jobs.rows && Matches(LaneQuery(board, column), x))
        == (set x | x in jobs.rows && InLane(x, board, column));
  }

  /** The board a job refers to, when its `board` is the id of a stored board. */
  function BoardOf(boards: Collection, job: Record): Option<Row> {
    var b := Get(job, "board");
    if b.Ref? then Lookup(boards.rows, b.id) else None
  }

  /** The job as `create` stores it: at the end of its lane, on
      `(jobs in lane + 1) * 1000`. */
  function AtLaneEnd(jobs: Collection, job: Record): Record {
    job[SortOrder := Num(Spacing * (LaneSize(jobs, Get(job, "board"), Get(job, BoardColumn)) + 1))]
  }

  /** `create(job)`: the job's owner must own its board; the job is then
      appended to its lane with `sortOrder = (jobs in lane + 1) * 1000`.
      The returned job has no `owner`. */
  function CreateJob(jobs: Collection, boards: Collection, job: Record, validate: Record -> bool): (r: Result<(Collection, Row), Error>)
    requires jobs.Valid()
    ensures BoardOf(boards, job).None? ==> r == Err(TypeError)
    ensures (BoardOf(boards, job).Some? && Get(job, "owner").Ref?
             && Get(job, "owner") != Get(BoardOf(boards, job).value.rec, "owner")) ==> r == Err(OwnerMismatch)
    ensures BoardOf(boards, job).Some? && !Get(job, "owner").Ref? ==> r == Err(TypeError)
    ensures (BoardOf(boards, job).Some? && Get(job, "owner").Ref?
             && Get(job, "owner") == Get(BoardOf(boards, job).value.rec, "owner")
             && !validate(AtLaneEnd(jobs, job))) ==> r == Err(ValidationFailed)
    ensures r.Err? ==> r.error in {TypeError, OwnerMismatch, ValidationFailed}
    ensures r.Ok? <==> && BoardOf(boards, job).Some? && Get(job, "owner").Ref?
                       && Get(job, "owner") == Get(BoardOf(boards, job).value.rec, "owner")
                       && validate(AtLaneEnd(jobs, job))
    ensures r.Ok? ==>
      var stored := AtLaneEnd(jobs, job);
      && r.value.0.rows == jobs.rows + [Row(r.value.1.id, stored)]
      && r.value.0.Valid()
      && !HasId(jobs.rows, r.value.1.id)
      && r.value.1.rec == stored - {"owner"}
  {
    match BoardOf(boards, job)
    case None => Err(TypeError)
    case Some(board) =>
      var owner := Get(job, "owner");
      if !owner.Ref? then Err(TypeError)
      else if owner != Get(board.rec, "owner") then Err(OwnerMismatch)
      else
        var lane := LaneQuery(Get(job, "board"), Get(job, BoardColumn));
        var n := Count(jobs, lane);
        LaneCount(jobs, Get(job, "board"), Get(job, BoardColumn));
        match Create(jobs, job[SortOrder := Num(Spacing * (n + 1))], None, validate)
        case Err(e) => Err(e)
        case Ok(w) => Ok((w.0, Row(w.1.id, w.1.rec - {"owner"})))
  }

  /** A created job joins its own lane and no other: the next job created
      in that lane gets the following multiple of 1000, and the positions
      handed out in every other lane are unaffected. */
  lemma CreateGrowsOwnLane(jobs: Collection, boards: Collection, job: Record, validate: Record -> bool, board: Value, column: Value)
    requires jobs.Valid()
    requires CreateJob(jobs, boards, job, validate).Ok?
    ensures LaneSize(CreateJob(jobs, boards, job, validate).value.0, board, column)
      == LaneSize(jobs, board, column) + (if Get(job, "board") == board && Get(job, BoardColumn) == column then 1 else 0)
  {
    var w := CreateJob(jobs, boards, job, validate).value;
    var stored := Row(w.1.id, AtLaneEnd(jobs, job));
    assert !HasId(jobs.rows, w.1.id);
    assert stored !in jobs.rows;
    assert InLane(stored, board, column) <==> Get(job, "board") == board && Get(job, BoardColumn) == column;
    AppendLaneSize(jobs.rows, stored, board, column);
  }

  lemma AppendLaneSize(rows: seq<Row>, x: Row, board: Value, column: Value)
    requires x !in rows
    ensures |set y | y in rows + [x] && InLane(y, board, column)|
      == |set y | y in rows && InLane(y, board, column)| + (if InLane(x, board, column) then 1 else 0)
  {
    LaneSetAppend(rows, x, board, column);
    AddOne((set y | y in rows && InLane(y, board, column)), x, InLane(x, board, column));
  }

  lemma LaneSetAppend(rows: seq<Row>, x: Row, board: Value, column: Value)
    ensures (set y | y in rows + [x] && InLane(y, board, column))
      == (set y | y in rows && InLane(y, board, column)) + (if InLane(x, board, column) then {x} else {})
  {
  }

  lemma AddOne(s: set<Row>, x: Row, b: bool)
    requires x !in s
    ensures |s + (if b then {x} else {})| == |s| + (if b then 1 else 0)
  {
  }

  /** The canonical sortOrder of the job at 0-based rank `k` of a lane. */
  function Canonical(k: nat): int {
    Spacing * (k + 1)
  }

  /** The lane's jobs, by ascending sortOrder. */
  function LaneSorted(jobs: Collection, board: Id, column: Id): seq<Row> {
    Find(jobs, LaneQuery(Ref(board), Ref(column)), By(SortOrder, true), None)
  }

  /** Every job of the lane holds the canonical sortOrder of its rank. */
  predicate IsAligned(jobs: Collection, board: Id, column: Id) {
    var lane := LaneSorted(jobs, board, column);
    forall j :: 0 <= j < |lane| ==> Get(lane[j].rec, SortOrder) == Num(Canonical(j))
  }

  predicate NotInLane(lane: seq<Row>, id: Id) {
    forall j :: 0 <= j < |lane| ==> lane[j].id != id
  }

  /** Writing a truthy value to one field is a plain field update. */
  lemma MergeSingle(rec: Record, k: string, v: Value)
    requires Truthy(v)
    ensures Merge(rec, map[k := v]) == rec[k := v]
  {
    var m := Merge(rec, map[k := v]);
    assert forall f :: Get(m, f) == Get(rec[k := v], f);
    assert forall f :: f in m <==> f in rec[k := v] by {
      forall f ensures f in m <==> f in rec[k := v] {
        if f == k {
          assert Get(m, f) == v;
        }
      }
    }
    forall f | f in m
      ensures m[f] == rec[k := v][f]
    {
      assert Get(m, f) == Get(rec[k := v], f);
    }
  }

  /** `after` is `jobs` with the j-th job of `lane` set to the canonical
      sortOrder of rank k + j, and every job outside `lane` as it was. */
  predicate Realigned(jobs: Collection, lane: seq<Row>, k: nat, after: Collection) {
    && after.Valid() && after.entity == jobs.entity && after.next == jobs.next
    && |after.rows| == |jobs.rows|
    && (forall i :: 0 <= i < |jobs.rows| ==> after.rows[i].id == jobs.rows[i].id)
    && (forall i :: 0 <= i < |jobs.rows| && NotInLane(lane, jobs.rows[i].id) ==> after.rows[i] == jobs.rows[i])
    && forall i, j :: 0 <= i < |jobs.rows| && 0 <= j < |lane| && jobs.rows[i].id == lane[j].id ==>
      after.rows[i].rec == lane[j].rec[SortOrder := Num(Canonical(k + j))]
  }

  /** Every job of `lane` already holds the canonical sortOrder of its rank. */
  predicate CanonicalFrom(lane: seq<Row>, k: nat) {
    forall j :: 0 <= j < |lane| ==> Get(lane[j].rec, SortOrder) == Num(Canonical(k + j))
  }

  /** What the loop of `alignSortOrder` leaves. Every update is saved as
      it is made, so an update that fails validation stops the loop with
      the earlier writes kept; `at` is the rank of the job whose update
      failed. */
  datatype Alignment =
    | Aligned(jobs: Collection)
    | Halted(jobs: Collection, at: nat)

  /** The loop's write for the j-th job of `lane`, at rank k + j, passes
      validation, or the job already holds its canonical sortOrder and is
      not written at all. */
  predicate WriteValid(lane: seq<Row>, k: nat, j: nat, validate: Record -> bool)
    requires j < |lane|
  {
    || Get(lane[j].rec, SortOrder) == Num(Canonical(k + j))
    || validate(lane[j].rec[SortOrder := Num(Canonical(k + j))])
  }

  /** Every write of the loop over `lane` from rank `k` passes validation. */
  predicate AllWritesValid(lane: seq<Row>, k: nat, validate: Record -> bool) {
    forall j :: 0 <= j < |lane| ==> WriteValid(lane, k, j, validate)
  }

  /** The loop over `lane` from rank `k` stopped at rank `at`: the writes
      of the ranks before it passed validation and are saved in `after`,
      and the write of rank `at` fails validation. */
  predicate HaltedAt(jobs: Collection, lane: seq<Row>, k: nat, at: nat, after: Collection, validate: Record -> bool) {
    && k <= at < k + |lane|
    && AllWritesValid(lane[..at - k], k, validate)
    && !WriteValid(lane, k, at - k, validate)
    && Realigned(jobs, lane[..at - k], k, after)
  }

  /** The loop of `alignSortOrder` from rank `k` on: each job of `lane`
      whose sortOrder is not canonical for its rank is updated. */
  function AlignFrom(jobs: Collection, lane: seq<Row>, k: nat, validate: Record -> bool): (r: Alignment)
    requires jobs.Valid()
    requires DistinctIds(lane)
    requires forall j :: 0 <= j < |lane| ==> lane[j] in jobs.rows
    ensures r.Aligned? <==> AllWritesValid(lane, k, validate)
    ensures r.Aligned? ==> Realigned(jobs, lane, k, r.jobs)
    ensures r.Halted? ==> HaltedAt(jobs, lane, k, r.at, r.jobs, validate)
    ensures CanonicalFrom(lane, k) ==> r == Aligned(jobs)
    decreases |lane|
  {
    if lane == [] then Aligned(jobs)
    else
      var head := AlignHead(jobs, lane, k, validate);
      if head.Halted? then
        HaltAtHead(jobs, lane, k, validate);
        head
      else
        var r := AlignFrom(head.jobs, lane[1..], k + 1, validate);
        AlignCombine(jobs, lane, k, head.jobs, r, validate);
        r
  }

  /** One pass of the loop: the head of `lane` is updated to the canonical
      sortOrder of rank `k` unless it already holds it. */
  function AlignHead(jobs: Collection, lane: seq<Row>, k: nat, validate: Record -> bool): (r: Alignment)
    requires jobs.Valid() && lane != [] && DistinctIds(lane)
    requires forall j :: 0 <= j < |lane| ==> lane[j] in jobs.rows
    ensures r.Halted? <==> !WriteValid(lane, k, 0, validate)
    ensures r.Halted? ==> r == Halted(jobs, k)
    ensures r.Aligned? ==> HeadWritten(jobs, lane, k, r.jobs)
    ensures Get(lane[0].rec, SortOrder) == Num(Canonical(k)) ==> r == Aligned(jobs)
  {
    var target := Canonical(k);
    if Get(lane[0].rec, SortOrder) != Num(target) then
      var u := Update(jobs, lane[0].id, map[SortOrder := Num(target)], validate);
      AlignUpdate(jobs, lane, k, validate);
      if u.Err? then Halted(jobs, k)
      else
        AlignWrite(jobs, lane, k, validate, u.value);
        Aligned(u.value.0)
    else
      AlignSkip(jobs, lane, k);
      Aligned(jobs)
  }

  /** `mid` is `jobs` with the head of `lane` set to the canonical
      sortOrder of rank `k`; the rest of the lane is still stored as listed. */
  predicate HeadWritten(jobs: Collection, lane: seq<Row>, k: nat, mid: Collection)
    requires lane != []
  {
    && DistinctIds(lane[1..]) && (forall j :: 0 <= j < |lane[1..]| ==> lane[1..][j] in mid.rows)
    && mid.Valid() && mid.entity == jobs.entity && mid.next == jobs.next && |mid.rows| == |jobs.rows|
    && (forall i :: 0 <= i < |jobs.rows| ==> mid.rows[i].id == jobs.rows[i].id)
    && (forall i :: 0 <= i < |jobs.rows| && jobs.rows[i].id != lane[0].id ==> mid.rows[i] == jobs.rows[i])
    && forall i :: 0 <= i < |jobs.rows| && jobs.rows[i].id == lane[0].id ==>
      mid.rows[i].rec == lane[0].rec[SortOrder := Num(Canonical(k))]
  }

  /** The update of the lane's head succeeds exactly when its renumbered
      record passes validation. */
  lemma AlignUpdate(jobs: Collection, lane: seq<Row>, k: nat, validate: Record -> bool)
    requires jobs.Valid() && lane != []
    requires lane[0] in jobs.rows
    ensures Update(jobs, lane[0].id, map[SortOrder := Num(Canonical(k))], validate).Ok?
      <==> validate(lane[0].rec[SortOrder := Num(Canonical(k))])
  {
    MergeSingle(lane[0].rec, SortOrder, Num(Canonical(k)));
    SameIdSameAll(jobs, lane[0]);
    var i :| 0 <= i < |jobs.rows| && jobs.rows[i] == lane[0];
    assert HasId(jobs.rows, lane[0].id);
  }

  /** What the update of the lane's head leaves behind. */
  lemma AlignWrite(jobs: Collection, lane: seq<Row>, k: nat, validate: Record -> bool, w: (Collection, Record))
    requires jobs.Valid() && lane != [] && DistinctIds(lane)
    requires forall j :: 0 <= j < |lane| ==> lane[j] in jobs.rows
    requires Get(lane[0].rec, SortOrder) != Num(Canonical(k))
    requires Update(jobs, lane[0].id, map[SortOrder := Num(Canonical(k))], validate) == Ok(w)
    ensures HeadWritten(jobs, lane, k, w.0)
  {
    var patch := map[SortOrder := Num(Canonical(k))];
    MergeSingle(lane[0].rec, SortOrder, Num(Canonical(k)));
    forall i | 0 <= i < |jobs.rows| && jobs.rows[i].id == lane[0].id
      ensures w.0.rows[i].rec == lane[0].rec[SortOrder := Num(Canonical(k))]
    {
      assert lane[0] in jobs.rows;
      var m :| 0 <= m < |jobs.rows| && jobs.rows[m] == lane[0];
      assert m == i;
    }
    AlignStep(jobs, lane, k, w.0);
  }

  /** After updating the head of the lane, the rest of the lane is still stored as listed. */
  lemma AlignStep(jobs: Collection, lane: seq<Row>, k: nat, after: Collection)
    requires jobs.Valid() && lane != [] && DistinctIds(lane)
    requires forall j :: 0 <= j < |lane| ==> lane[j] in jobs.rows
    requires after.Valid() && |after.rows| == |jobs.rows|
    requires forall i :: 0 <= i < |jobs.rows| ==> after.rows[i].id == jobs.rows[i].id
    requires forall i :: 0 <= i < |jobs.rows| && jobs.rows[i].id != lane[0].id ==> after.rows[i] == jobs.rows[i]
    ensures DistinctIds(lane[1..])
    ensures forall j :: 0 <= j < |lane[1..]| ==> lane[1..][j] in after.rows
  {
    forall j | 0 <= j < |lane[1..]|
      ensures lane[1..][j] in after.rows
    {
      assert lane[1..][j] == lane[j + 1];
      var i :| 0 <= i < |jobs.rows| && jobs.rows[i] == lane[j + 1];
      assert after.rows[i] == jobs.rows[i];
    }
  }

  lemma AlignSkip(jobs: Collection, lane: seq<Row>, k: nat)
    requires jobs.Valid() && lane != [] && DistinctIds(lane)
    requires forall j :: 0 <= j < |lane| ==> lane[j] in jobs.rows
    requires Get(lane[0].rec, SortOrder) == Num(Canonical(k))
    ensures HeadWritten(jobs, lane, k, jobs)
  {
    assert forall j :: 0 <= j < |lane[1..]| ==> lane[1..][j] == lane[j + 1];
    assert lane[0].rec[SortOrder := Num(Canonical(k))] == lane[0].rec;
    forall i | 0 <= i < |jobs.rows| && jobs.rows[i].id == lane[0].id
      ensures jobs.rows[i] == lane[0]
    {
      SameIdSameRow(jobs, jobs.rows[i], lane[0]);
    }
  }

  /** A loop that stops at the lane's head has written nothing. */
  lemma HaltAtHead(jobs: Collection, lane: seq<Row>, k: nat, validate: Record -> bool)
    requires jobs.Valid() && lane != []
    requires !WriteValid(lane, k, 0, validate)
    ensures !AllWritesValid(lane, k, validate)
    ensures HaltedAt(jobs, lane, k, k, jobs, validate)
  {
    assert lane[..0] == [];
  }

  /** The write of the loop from rank k + 1 for the j-th job of the
      lane's tail is its write from rank k for the (j + 1)-th job of the lane. */
  lemma WriteShiftAt(lane: seq<Row>, k: nat, j: nat, validate: Record -> bool)
    requires j + 1 < |lane|
    ensures WriteValid(lane[1..], k + 1, j, validate) <==> WriteValid(lane, k, j + 1, validate)
  {
    assert lane[1..][j] == lane[j + 1];
    assert k + 1 + j == k + (j + 1);
  }

  /** The writes from rank k over a lane pass validation exactly when the
      head's does and the tail's from rank k + 1 do. */
  lemma WritesShift(lane: seq<Row>, k: nat, validate: Record -> bool)
    requires lane != []
    ensures AllWritesValid(lane, k, validate) <==>
      WriteValid(lane, k, 0, validate) && AllWritesValid(lane[1..], k + 1, validate)
  {
    if WriteValid(lane, k, 0, validate) && AllWritesValid(lane[1..], k + 1, validate) {
      forall j | 0 <= j < |lane|
        ensures WriteValid(lane, k, j, validate)
      {
        if j > 0 {
          WriteShiftAt(lane, k, j - 1, validate);
        }
      }
    }
    if AllWritesValid(lane, k, validate) {
      var tail, next := lane[1..], k + 1;
      forall j | 0 <= j < |tail|
        ensures WriteValid(tail, next, j, validate)
      {
        WriteShiftAt(lane, k, j, validate);
      }
    }
  }

  /** Renumbering the head, then the tail from the next rank, renumbers the lane. */
  lemma RealignedCons(jobs: Collection, lane: seq<Row>, k: nat, mid: Collection, after: Collection)
    requires jobs.Valid() && lane != [] && DistinctIds(lane)
    requires HeadWritten(jobs, lane, k, mid)
    requires Realigned(mid, lane[1..], k + 1, after)
    ensures Realigned(jobs, lane, k, after)
  {
    assert forall j :: 0 <= j < |lane[1..]| ==> lane[1..][j] == lane[j + 1];
    forall i | 0 <= i < |jobs.rows| && NotInLane(lane, jobs.rows[i].id)
      ensures after.rows[i] == jobs.rows[i]
    {
      assert NotInLane(lane[1..], mid.rows[i].id);
    }
    forall i, j | 0 <= i < |jobs.rows| && 0 <= j < |lane| && jobs.rows[i].id == lane[j].id
      ensures after.rows[i].rec == lane[j].rec[SortOrder := Num(Canonical(k + j))]
    {
      if j == 0 {
        assert NotInLane(lane[1..], mid.rows[i].id);
      } else {
        assert mid.rows[i].id == lane[1..][j - 1].id;
      }
    }
  }

  /** Puts the head step and the recursive call of AlignFrom together. */
  lemma AlignCombine(jobs: Collection, lane: seq<Row>, k: nat, mid: Collection, r: Alignment, validate: Record -> bool)
    requires jobs.Valid() && lane != [] && DistinctIds(lane)
    requires HeadWritten(jobs, lane, k, mid)
    requires WriteValid(lane, k, 0, validate)
    requires Get(lane[0].rec, SortOrder) == Num(Canonical(k)) ==> mid == jobs
    requires r.Aligned? <==> AllWritesValid(lane[1..], k + 1, validate)
    requires r.Aligned? ==> Realigned(mid, lane[1..], k + 1, r.jobs)
    requires r.Halted? ==> HaltedAt(mid, lane[1..], k + 1, r.at, r.jobs, validate)
    requires CanonicalFrom(lane[1..], k + 1) ==> r == Aligned(mid)
    ensures r.Aligned? <==> AllWritesValid(lane, k, validate)
    ensures r.Aligned? ==> Realigned(jobs, lane, k, r.jobs)
    ensures r.Halted? ==> HaltedAt(jobs, lane, k, r.at, r.jobs, validate)
    ensures CanonicalFrom(lane, k) ==> r == Aligned(jobs)
  {
    WritesShift(lane, k, validate);
    if r.Aligned? {
      RealignedCons(jobs, lane, k, mid, r.jobs);
    } else {
      HaltedCons(jobs, lane, k, mid, r.at, r.jobs, validate);
    }
    CanonicalShift(lane, k);
  }

  /** A halt in the tail is a halt in the lane, one job further on. */
  lemma HaltedCons(jobs: Collection, lane: seq<Row>, k: nat, mid: Collection, at: nat, after: Collection, validate: Record -> bool)
    requires jobs.Valid() && lane != [] && DistinctIds(lane)
    requires HeadWritten(jobs, lane, k, mid)
    requires WriteValid(lane, k, 0, validate)
    requires HaltedAt(mid, lane[1..], k + 1, at, after, validate)
    ensures HaltedAt(jobs, lane, k, at, after, validate)
  {
    var n := at - k;
    var done := lane[..n];
    assert done[1..] == lane[1..][..at - (k + 1)];
    WritesShift(lane, k, validate);
    WritesShift(done, k, validate);
    WriteShiftAt(lane, k, at - (k + 1), validate);
    DistinctPrefix(lane, n);
    HeadWrittenPrefix(jobs, lane, k, mid, n);
    RealignedCons(jobs, done, k, mid, after);
  }

  lemma DistinctPrefix(lane: seq<Row>, n: nat)
    requires DistinctIds(lane) && n <= |lane|
    ensures DistinctIds(lane[..n])
  {
    assert forall j :: 0 <= j < n ==> lane[..n][j] == lane[j];
  }

  /** The head step of a lane is the head step of each of its non-empty prefixes. */
  lemma HeadWrittenPrefix(jobs: Collection, lane: seq<Row>, k: nat, mid: Collection, n: nat)
    requires lane != [] && 0 < n <= |lane| && DistinctIds(lane)
    requires HeadWritten(jobs, lane, k, mid)
    ensures HeadWritten(jobs, lane[..n], k, mid)
  {
    var done := lane[..n];
    assert forall j :: 0 <= j < |done[1..]| ==> done[1..][j] == lane[1..][j];
  }

  /** A lane is canonical from rank k exactly when its head is and its
      tail is from rank k + 1. */
  lemma CanonicalShift(lane: seq<Row>, k: nat)
    requires lane != []
    ensures CanonicalFrom(lane, k) <==>
      Get(lane[0].rec, SortOrder) == Num(Canonical(k)) && CanonicalFrom(lane[1..], k + 1)
  {
    assert forall j :: 0 <= j < |lane[1..]| ==> lane[1..][j] == lane[j + 1];
    if Get(lane[0].rec, SortOrder) == Num(Canonical(k)) && CanonicalFrom(lane[1..], k + 1) {
      forall j | 0 <= j < |lane|
        ensures Get(lane[j].rec, SortOrder) == Num(Canonical(k + j))
      {
        if j > 0 {
          assert Get(lane[1..][j - 1].rec, SortOrder) == Num(Canonical(k + 1 + (j - 1)));
        }
      }
    }
    if CanonicalFrom(lane, k) {
      assert Get(lane[0].rec, SortOrder) == Num(Canonical(k + 0));
      forall j | 0 <= j < |lane[1..]|
        ensures Get(lane[1..][j].rec, SortOrder) == Num(Canonical(k + 1 + j))
      {
        assert Get(lane[j + 1].rec, SortOrder) == Num(Canonical(k + (j + 1)));
      }
    }
  }

  /** The lane sorted by sortOrder: only lane jobs, each once, all of them. */
  lemma LaneSortedFacts(jobs: Collection, board: Id, column: Id)
    requires jobs.Valid()
    ensures var lane := LaneSorted(jobs, board, column);
      && DistinctIds(lane)
      && SortedBy(lane, SortOrder, true)
      && forall x :: x in lane <==> x in jobs.rows && InLane(x, Ref(board), Ref(column))
  {
    LaneMatches(Ref(board), Ref(column));
  }

  /** `alignSortOrder(board, boardColumn)`: renumbers the lane so that its
      k-th job by ascending sortOrder (1-based) holds k * 1000, writing
      only jobs whose sortOrder differs from that value. The first update
      that fails validation stops the loop; the lane jobs before it stay
      renumbered. */
  function AlignSortOrder(jobs: Collection, board: Id, column: Id, validate: Record -> bool): (r: Alignment)
    requires jobs.Valid()
    ensures r.Aligned? <==> AllWritesValid(LaneSorted(jobs, board, column), 0, validate)
    ensures r.Aligned? ==> r.jobs.Valid() && r.jobs.entity == jobs.entity && r.jobs.next == jobs.next
    ensures r.Aligned? ==> |r.jobs.rows| == |jobs.rows|
    ensures r.Aligned? ==> forall i :: 0 <= i < |jobs.rows| ==> r.jobs.rows[i].id == jobs.rows[i].id
    ensures r.Aligned? ==> forall i :: 0 <= i < |jobs.rows| && !InLane(jobs.rows[i], Ref(board), Ref(column)) ==>
      r.jobs.rows[i] == jobs.rows[i]
    ensures r.Aligned? ==> var lane := LaneSorted(jobs, board, column);
      forall i, j :: 0 <= i < |jobs.rows| && 0 <= j < |lane| && jobs.rows[i].id == lane[j].id ==>
        r.jobs.rows[i].rec == lane[j].rec[SortOrder := Num(Canonical(j))]
    ensures r.Halted? ==> HaltedAt(jobs, LaneSorted(jobs, board, column), 0, r.at, r.jobs, validate)
    ensures IsAligned(jobs, board, column) ==> r == Aligned(jobs)
  {
    var lane := LaneSorted(jobs, board, column);
    LaneSortedFacts(jobs, board, column);
    OutsideLane(jobs, board, column, lane);
    AlignFrom(jobs, lane, 0, validate)
  }

  /** A job outside the lane is not listed in the lane. */
  lemma OutsideLane(jobs: Collection, board: Id, column: Id, lane: seq<Row>)
    requires jobs.Valid()
    requires forall x :: x in lane ==> x in jobs.rows && InLane(x, Ref(board), Ref(column))
    ensures forall i :: 0 <= i < |jobs.rows| && !InLane(jobs.rows[i], Ref(board), Ref(column)) ==>
      NotInLane(lane, jobs.rows[i].id)
  {
    forall i, j | 0 <= i < |jobs.rows| && !InLane(jobs.rows[i], Ref(board), Ref(column)) && 0 <= j < |lane|
      ensures lane[j].id != jobs.rows[i].id
    {
      assert lane[j] in lane;
      if lane[j].id == jobs.rows[i].id {
        SameIdSameRow(jobs, lane[j], jobs.rows[i]);
      }
    }
  }

  /** In a store with unique ids a row is known by its id. */
  lemma SameIdSameRow(jobs: Collection, a: Row, b: Row)
    requires jobs.Valid() && a in jobs.rows && b in jobs.rows && a.id == b.id
    ensures a == b
  {
  }

  /** The lane as `alignSortOrder` leaves it: the old order, renumbered. */
  function Renumbered(lane: seq<Row>): (m: seq<Row>)
    ensures |m| == |lane|
    ensures forall j :: 0 <= j < |lane| ==> m[j] == Row(lane[j].id, lane[j].rec[SortOrder := Num(Canonical(j))])
  {
    seq(|lane|, j requires 0 <= j < |lane| => Row(lane[j].id, lane[j].rec[SortOrder := Num(Canonical(j))]))
  }

  lemma RenumberedStrict(lane: seq<Row>)
    ensures StrictlySortedBy(Renumbered(lane), SortOrder, true)
  {
    var m := Renumbered(lane);
    forall i, j | 0 <= i < j < |m|
      ensures !Before(m[j], m[i], SortOrder, true)
    {
      assert Get(m[j].rec, SortOrder) == Num(Canonical(j));
      assert Get(m[i].rec, SortOrder) == Num(Canonical(i));
    }
  }

  /** After a successful `alignSortOrder` the lane is aligned, and its
      order is the order the lane had before. */
  lemma AlignAligns(jobs: Collection, board: Id, column: Id, validate: Record -> bool)
    requires jobs.Valid()
    requires AlignSortOrder(jobs, board, column, validate).Aligned?
    ensures var after := AlignSortOrder(jobs, board, column, validate).jobs;
      && LaneSorted(after, board, column) == Renumbered(LaneSorted(jobs, board, column))
      && IsAligned(after, board, column)
  {
    var after := AlignSortOrder(jobs, board, column, validate).jobs;
    var lane := LaneSorted(jobs, board, column);
    var relisted := LaneSorted(after, board, column);
    var m := Renumbered(lane);
    LaneSortedFacts(jobs, board, column);
    LaneSortedFacts(after, board, column);
    RenumberedStrict(lane);
    forall x
      ensures x in relisted <==> x in m
    {
      if x in relisted {
        AfterLaneRow(jobs, board, column, validate, x);
      }
      if x in m {
        var j :| 0 <= j < |m| && m[j] == x;
        RenumberedRowStored(jobs, board, column, validate, j);
      }
    }
    forall i, j | 0 <= i < j < |relisted|
      ensures relisted[i] != relisted[j]
    {
    }
    SortedUnique(relisted, m, SortOrder, true);
  }

  /** Each renumbered lane job is stored in the aligned collection. */
  lemma RenumberedRowStored(jobs: Collection, board: Id, column: Id, validate: Record -> bool, j: nat)
    requires jobs.Valid()
    requires AlignSortOrder(jobs, board, column, validate).Aligned?
    requires j < |LaneSorted(jobs, board, column)|
    ensures var after := AlignSortOrder(jobs, board, column, validate).jobs;
      var m := Renumbered(LaneSorted(jobs, board, column));
      m[j] in after.rows && InLane(m[j], Ref(board), Ref(column))
  {
    var after := AlignSortOrder(jobs, board, column, validate).jobs;
    var lane := LaneSorted(jobs, board, column);
    LaneSortedFacts(jobs, board, column);
    assert lane[j] in lane;
    var i :| 0 <= i < |jobs.rows| && jobs.rows[i] == lane[j];
    assert after.rows[i] == Renumbered(lane)[j];
  }

  /** Each lane job of the aligned collection is a renumbered lane job. */
  lemma AfterLaneRow(jobs: Collection, board: Id, column: Id, validate: Record -> bool, x: Row)
    requires jobs.Valid()
    requires AlignSortOrder(jobs, board, column, validate).Aligned?
    requires x in AlignSortOrder(jobs, board, column, validate).jobs.rows
    requires InLane(x, Ref(board), Ref(column))
    ensures x in Renumbered(LaneSorted(jobs, board, column))
  {
    var after := AlignSortOrder(jobs, board, column, validate).jobs;
    var lane := LaneSorted(jobs, board, column);
    LaneSortedFacts(jobs, board, column);
    var i :| 0 <= i < |after.rows| && after.rows[i] == x;
    if InLane(jobs.rows[i], Ref(board), Ref(column)) {
      assert jobs.rows[i] in lane;
      var j :| 0 <= j < |lane| && lane[j] == jobs.rows[i];
      assert x == Renumbered(lane)[j];
    } else {
      assert false;
    }
  }

  /** `alignSortOrder` is idempotent: a second call writes nothing. */
  lemma AlignIdempotent(jobs: Collection, board: Id, column: Id, validate: Record -> bool)
    requires jobs.Valid()
    requires AlignSortOrder(jobs, board, column, validate).Aligned?
    ensures var after := AlignSortOrder(jobs, board, column, validate).jobs;
      AlignSortOrder(after, board, column, validate) == Aligned(after)
  {
    AlignAligns(jobs, board, column, validate);
  }

  // ---------------------------------------------------------------------
  // move(id, board, boardColumn, prevJobId?, retry?)

  /** A sortOrder read as a bound, as in `(prevJob && prevJob.sortOrder) || 0`. */
  function OrderOf(v: Value): int {
    if v.Num? then v.n else 0
  }

  /** `min`: the previous job's sortOrder, 0 without a previous job. An
      unknown previous job is the 404 of `findOne`. */
  function LowerBound(jobs: Collection, prev: Option<Id>): (r: Result<int, Error>)
    requires jobs.Valid()
    ensures prev.None? ==> r == Ok(0)
    ensures prev.Some? ==> (r.Err? <==> !HasId(jobs.rows, prev.value))
    ensures r.Err? ==> r == Err(NotFound)
    ensures r.Ok? && prev.Some? ==> forall x :: x in jobs.rows && x.id == prev.value ==>
      r.value == OrderOf(Get(x.rec, SortOrder))
  {
    match prev
    case None => Ok(0)
    case Some(p) =>
      match FindOne(jobs, p)
      case Err(e) => Err(e)
      case Ok(x) =>
        SameIdSameAll(jobs, x);
        Ok(OrderOf(Get(x.rec, SortOrder)))
  }

  lemma SameIdSameAll(jobs: Collection, x: Row)
    requires jobs.Valid() && x in jobs.rows
    ensures forall y :: y in jobs.rows && y.id == x.id ==> y == x
  {
    forall y | y in jobs.rows && y.id == x.id
      ensures y == x
    {
      SameIdSameRow(jobs, x, y);
    }
  }

  /** Where the neighbour search looks. `move` as written searches every
      lane (`Global`); `LaneScope` is the destination lane only. */
  const Global: Query := []

  function LaneScope(board: Id, column: Id): Query {
    LaneQuery(Ref(board), Ref(column))
  }

  /** Another job within `scope` with a numeric sortOrder above `lo`: what
      the neighbour search matches. */
  predicate Above(x: Row, id: Id, lo: int, scope: Query) {
    x.id != id && Get(x.rec, SortOrder).Num? && Get(x.rec, SortOrder).n > lo && Matches(scope, x)
  }

  /** `{ sortOrder: { $gt: lo }, id: { $not: { $eq: id } } }`, narrowed by `scope`. */
  function AboveQuery(id: Id, lo: int, scope: Query): Query {
    [Gt(SortOrder, lo), IdNot(id)] + scope
  }

  lemma AboveMatches(id: Id, lo: int, scope: Query)
    ensures forall x :: Matches(AboveQuery(id, lo, scope), x) <==> Above(x, id, lo, scope)
  {
    forall x
      ensures Matches(AboveQuery(id, lo, scope), x) <==> Above(x, id, lo, scope)
    {
      var q := AboveQuery(id, lo, scope);
      MatchesConcat([Gt(SortOrder, lo), IdNot(id)], scope, x);
      var base := [Gt(SortOrder, lo), IdNot(id)];
      if x.id != id && Get(x.rec, SortOrder).Num? && Get(x.rec, SortOrder).n > lo {
        assert forall k :: 0 <= k < |base| ==> Holds(base[k], x);
      } else {
        assert !Holds(base[0], x) || !Holds(base[1], x);
      }
    }
  }

  /** `nextJob`: the first job above `lo` by ascending sortOrder, the moved
      job excluded. */
  function NextJob(jobs: Collection, id: Id, lo: int, scope: Query): (r: Option<Row>)
    ensures r.Some? ==> r.value in jobs.rows && Above(r.value, id, lo, scope)
    ensures r.Some? ==> forall x :: x in jobs.rows && Above(x, id, lo, scope) ==>
      Get(r.value.rec, SortOrder).n <= Get(x.rec, SortOrder).n
    ensures r.None? <==> forall x :: x in jobs.rows ==> !Above(x, id, lo, scope)
  {
    var found := Find(jobs, AboveQuery(id, lo, scope), By(SortOrder, true), Some(1));
    AboveMatches(id, lo, scope);
    if |found| > 0 then
      NextJobFirst(jobs, id, lo, scope, found);
      Some(found[0])
    else
      None
  }

  lemma NextJobFirst(jobs: Collection, id: Id, lo: int, scope: Query, found: seq<Row>)
    requires found == Find(jobs, AboveQuery(id, lo, scope), By(SortOrder, true), Some(1)) && |found| > 0
    requires forall x :: Matches(AboveQuery(id, lo, scope), x) <==> Above(x, id, lo, scope)
    ensures found[0] in jobs.rows && Above(found[0], id, lo, scope)
    ensures forall x :: x in jobs.rows && Above(x, id, lo, scope) ==>
      Get(found[0].rec, SortOrder).n <= Get(x.rec, SortOrder).n
  {
    var q := AboveQuery(id, lo, scope);
    FindFirst(jobs, q, SortOrder, true, Some(1), found);
    forall x | x in jobs.rows && Above(x, id, lo, scope)
      ensures Get(found[0].rec, SortOrder).n <= Get(x.rec, SortOrder).n
    {
      assert Matches(q, x);
      assert Before(found[0], x, SortOrder, true);
    }
  }

  /** `Math.ceil((lo + 1) / 1000) * 1000`: the first multiple of 1000 above `lo`. */
  function NextSlot(lo: int): (r: int)
    ensures r % Spacing == 0 && lo < r <= lo + Spacing
  {
    var q := (-(lo + 1)) / Spacing;
    assert -(lo + 1) == Spacing * q + (-(lo + 1)) % Spacing;
    -q * Spacing
  }

  /** `max`: the least sortOrder above `lo` among the other jobs of every
      lane, or the next multiple of 1000 when there is none. */
  function UpperBound(jobs: Collection, id: Id, lo: int, scope: Query): (hi: int)
    ensures lo < hi
    ensures forall x :: x in jobs.rows && Above(x, id, lo, scope) ==> hi <= Get(x.rec, SortOrder).n
    ensures (exists x :: x in jobs.rows && Above(x, id, lo, scope)) ==>
      exists x :: x in jobs.rows && Above(x, id, lo, scope) && Get(x.rec, SortOrder).n == hi
    ensures (forall x :: x in jobs.rows ==> !Above(x, id, lo, scope)) ==> hi == NextSlot(lo)
  {
    match NextJob(jobs, id, lo, scope)
    case Some(next) => Get(next.rec, SortOrder).n
    case None => NextSlot(lo)
  }

  /** `Math.floor((min + max) / 2)`; it meets `min` exactly when the bounds
      are adjacent integers, and never meets `max`. */
  function Midpoint(lo: int, hi: int): (m: int)
    requires lo < hi
    ensures lo <= m < hi
    ensures m == lo <==> hi - lo == 1
  {
    (lo + hi) / 2
  }

  /** No integer lies strictly between the bounds of a move; this is when
      the midpoint meets one of them, the test of `move` that triggers a
      realignment. */
  predicate Stuck(jobs: Collection, id: Id, prev: Option<Id>, scope: Query)
    requires jobs.Valid()
    ensures Stuck(jobs, id, prev, scope) <==>
      && LowerBound(jobs, prev).Ok?
      && var lo := LowerBound(jobs, prev).value;
         var hi := UpperBound(jobs, id, lo, scope);
         Midpoint(lo, hi) == lo || Midpoint(lo, hi) == hi
  {
    && LowerBound(jobs, prev).Ok?
    && UpperBound(jobs, id, LowerBound(jobs, prev).value, scope) - LowerBound(jobs, prev).value == 1
  }

  /** The fields `move` writes: `{ sortOrder: pos, boardColumn }`. */
  function MovePatch(pos: int, column: Id): map<string, Value> {
    map[SortOrder := Num(pos), BoardColumn := Ref(column)]
  }

  /** The moved job, merged with the fields `move` writes, passes validation. */
  predicate MoveValidates(jobs: Collection, id: Id, column: Id, pos: int, validate: Record -> bool) {
    forall i :: 0 <= i < |jobs.rows| && jobs.rows[i].id == id ==> validate(Merge(jobs.rows[i].rec, MovePatch(pos, column)))
  }

  /** The midpoint of the bounds of a move. */
  function Target(jobs: Collection, id: Id, prev: Option<Id>, scope: Query): int
    requires jobs.Valid() && LowerBound(jobs, prev).Ok?
  {
    var lo := LowerBound(jobs, prev).value;
    Midpoint(lo, UpperBound(jobs, id, lo, scope))
  }

  /** The bounds of a move are known and leave room, and the moved job is stored. */
  predicate HasRoom(jobs: Collection, id: Id, prev: Option<Id>, scope: Query)
    requires jobs.Valid()
  {
    LowerBound(jobs, prev).Ok? && !Stuck(jobs, id, prev, scope) && HasId(jobs.rows, id)
  }

  /** One pass of `move` can write, and its write passes validation. */
  predicate Placeable(jobs: Collection, id: Id, column: Id, prev: Option<Id>, scope: Query, validate: Record -> bool)
    requires jobs.Valid()
  {
    HasRoom(jobs, id, prev, scope) && MoveValidates(jobs, id, column, Target(jobs, id, prev, scope), validate)
  }

  /** One pass of `move` writes, and its write fails validation. */
  predicate Rejected(jobs: Collection, id: Id, column: Id, prev: Option<Id>, scope: Query, validate: Record -> bool)
    requires jobs.Valid()
  {
    HasRoom(jobs, id, prev, scope) && !MoveValidates(jobs, id, column, Target(jobs, id, prev, scope), validate)
  }

  /** `after` is `before` with job `id` put into `column` at position `pos`:
      sortOrder and boardColumn are written (a zero sortOrder, being falsy,
      is not), every other field and every other job is left as it was. */
  ghost predicate MovedTo(before: Collection, after: Collection, id: Id, column: Id, pos: int) {
    && HasId(before.rows, id)
    && after.Valid() && after.entity == before.entity && after.next == before.next
    && |after.rows| == |before.rows|
    && (forall i :: 0 <= i < |before.rows| ==> after.rows[i].id == before.rows[i].id)
    && (forall i :: 0 <= i < |before.rows| && before.rows[i].id != id ==> after.rows[i] == before.rows[i])
    && forall i :: 0 <= i < |before.rows| && before.rows[i].id == id ==>
      && Get(after.rows[i].rec, BoardColumn) == Ref(column)
      && Get(after.rows[i].rec, SortOrder) == (if pos != 0 then Num(pos) else Get(before.rows[i].rec, SortOrder))
      && forall k :: k != SortOrder && k != BoardColumn ==> Get(after.rows[i].rec, k) == Get(before.rows[i].rec, k)
  }

  /** A successful attempt: the bounds leave room, and the job moved to
      the midpoint of its bounds. */
  ghost predicate Landed(before: Collection, after: Collection, id: Id, column: Id, prev: Option<Id>, scope: Query)
    requires before.Valid()
  {
    && LowerBound(before, prev).Ok?
    && var lo := LowerBound(before, prev).value;
      var hi := UpperBound(before, id, lo, scope);
      && hi - lo > 1
      && MovedTo(before, after, id, column, Midpoint(lo, hi))
  }

  /** The outcome of one pass of `move`, before any retry. A failed pass
      has written nothing. */
  datatype Attempt =
    | Placed(jobs: Collection, job: Record)
    | Exhausted
    | Failed(error: Error)

  /** One pass of `move`: bounds, midpoint, and either the exhaustion
      signal or the update `{ sortOrder, boardColumn }` of the moved job. */
  function TryPlace(jobs: Collection, id: Id, column: Id, prev: Option<Id>, scope: Query, validate: Record -> bool): (r: Attempt)
    requires jobs.Valid()
    ensures prev.Some? && !HasId(jobs.rows, prev.value) ==> r == Failed(NotFound)
    ensures r.Failed? ==> r.error == NotFound || r.error == ValidationFailed
    ensures r == Failed(NotFound) ==> (prev.Some? && !HasId(jobs.rows, prev.value)) || !HasId(jobs.rows, id)
    ensures r.Exhausted? <==> Stuck(jobs, id, prev, scope)
    ensures !Stuck(jobs, id, prev, scope) && LowerBound(jobs, prev).Ok? && !HasId(jobs.rows, id) ==> r == Failed(NotFound)
    ensures r.Placed? <==> Placeable(jobs, id, column, prev, scope, validate)
    ensures r == Failed(ValidationFailed) <==> Rejected(jobs, id, column, prev, scope, validate)
    ensures r.Placed? ==> Landed(jobs, r.jobs, id, column, prev, scope)
    ensures r.Placed? ==> forall i :: 0 <= i < |r.jobs.rows| && r.jobs.rows[i].id == id ==>
      validate(r.jobs.rows[i].rec) && r.job == r.jobs.rows[i].rec - {"owner"}
  {
    var lb := LowerBound(jobs, prev);
    if lb.Err? then Failed(lb.error)
    else
      var lo := lb.value;
      var hi := UpperBound(jobs, id, lo, scope);
      var pos := Midpoint(lo, hi);
      if pos == lo || pos == hi then Exhausted
      else
        assert pos == Target(jobs, id, prev, scope) && !Stuck(jobs, id, prev, scope);
        PlaceAt(jobs, id, column, pos, validate)
  }

  /** The update `{ sortOrder: pos, boardColumn }` of the moved job, with
      the owner stripped from the returned record. The outcome is that of
      the save; the lookups of the company and board column that follow it
      in `JobService.update`, and their 404 or 500, are not modelled. */
  function PlaceAt(jobs: Collection, id: Id, column: Id, pos: int, validate: Record -> bool): (r: Attempt)
    requires jobs.Valid()
    ensures !r.Exhausted?
    ensures r.Failed? ==> r.error == NotFound || r.error == ValidationFailed
    ensures r == Failed(NotFound) <==> !HasId(jobs.rows, id)
    ensures r.Placed? <==> HasId(jobs.rows, id) && MoveValidates(jobs, id, column, pos, validate)
    ensures r.Placed? ==> MovedTo(jobs, r.jobs, id, column, pos)
    ensures r.Placed? ==> forall i :: 0 <= i < |r.jobs.rows| && r.jobs.rows[i].id == id ==>
      validate(r.jobs.rows[i].rec) && r.job == r.jobs.rows[i].rec - {"owner"}
  {
    var u := Update(jobs, id, MovePatch(pos, column), validate);
    if u.Err? then Failed(u.error)
    else
      PlacedFacts(jobs, id, column, pos, validate, u.value);
      Placed(u.value.0, u.value.1 - {"owner"})
  }

  lemma PlacedFacts(jobs: Collection, id: Id, column: Id, pos: int, validate: Record -> bool, w: (Collection, Record))
    requires jobs.Valid()
    requires Update(jobs, id, MovePatch(pos, column), validate) == Ok(w)
    ensures MovedTo(jobs, w.0, id, column, pos)
    ensures forall i :: 0 <= i < |w.0.rows| && w.0.rows[i].id == id ==> w.0.rows[i].rec == w.1 && validate(w.1)
  {
    var patch := MovePatch(pos, column);
    assert SortOrder != BoardColumn;
    forall i | 0 <= i < |jobs.rows| && jobs.rows[i].id == id
      ensures Get(w.0.rows[i].rec, BoardColumn) == Ref(column)
      ensures Get(w.0.rows[i].rec, SortOrder) == (if pos != 0 then Num(pos) else Get(jobs.rows[i].rec, SortOrder))
      ensures forall k :: k != SortOrder && k != BoardColumn ==> Get(w.0.rows[i].rec, k) == Get(jobs.rows[i].rec, k)
    {
      var u := Get(w.0.rows[i].rec, SortOrder);
      assert Truthy(patch[BoardColumn]);
      assert u == if Truthy(patch[SortOrder]) then patch[SortOrder] else Get(jobs.rows[i].rec, SortOrder);
      forall k | k != SortOrder && k != BoardColumn
        ensures Get(w.0.rows[i].rec, k) == Get(jobs.rows[i].rec, k)
      {
        assert k !in patch;
      }
    }
  }

  /** What `move` leaves: the store with every write it made, and the
      moved job or the error it throws. */
  datatype Moved = Moved(jobs: Collection, result: Result<Record, Error>)

  /** `move(id, board, boardColumn, prevJobId, retry)`. When the bounds are
      adjacent, the destination lane is realigned and the move retried
      once; a second exhaustion is 'Sort order alignment failed'. The
      realignment is saved whatever the retry does. */
  function Move(jobs: Collection, id: Id, board: Id, column: Id, prev: Option<Id>, retry: bool, scope: Query, validate: Record -> bool): (r: Moved)
    requires jobs.Valid()
    ensures prev.Some? && !HasId(jobs.rows, prev.value) ==> r == Moved(jobs, Err(NotFound))
    ensures r.result.Err? ==> r.result.error in {NotFound, ValidationFailed, AlignmentFailed}
    ensures r.result == Err(NotFound) ==> (prev.Some? && !HasId(jobs.rows, prev.value)) || !HasId(jobs.rows, id)
    ensures r.result.Err? ==>
      r.jobs == if Stuck(jobs, id, prev, scope) && !retry then AlignSortOrder(jobs, board, column, validate).jobs else jobs
    ensures r.result.Ok? <==>
      if !Stuck(jobs, id, prev, scope) then Placeable(jobs, id, column, prev, scope, validate)
      else !retry && AlignSortOrder(jobs, board, column, validate).Aligned?
           && Placeable(AlignSortOrder(jobs, board, column, validate).jobs, id, column, prev, scope, validate)
    ensures r.result == Err(ValidationFailed) <==>
      if !Stuck(jobs, id, prev, scope) then Rejected(jobs, id, column, prev, scope, validate)
      else !retry && (AlignSortOrder(jobs, board, column, validate).Halted?
                      || Rejected(AlignSortOrder(jobs, board, column, validate).jobs, id, column, prev, scope, validate))
    ensures r.result == Err(AlignmentFailed) <==>
      && Stuck(jobs, id, prev, scope)
      && (retry || (AlignSortOrder(jobs, board, column, validate).Aligned?
                    && Stuck(AlignSortOrder(jobs, board, column, validate).jobs, id, prev, scope)))
    ensures r.result.Ok? ==> HasId(jobs.rows, id) && r.jobs.Valid()
    ensures r.result.Ok? && !Stuck(jobs, id, prev, scope) ==> Landed(jobs, r.jobs, id, column, prev, scope)
    ensures r.result.Ok? && Stuck(jobs, id, prev, scope) ==>
      Landed(AlignSortOrder(jobs, board, column, validate).jobs, r.jobs, id, column, prev, scope)
    ensures r.result.Ok? ==> forall i :: 0 <= i < |r.jobs.rows| && r.jobs.rows[i].id == id ==>
      r.result.value == r.jobs.rows[i].rec - {"owner"}
    decreases if retry then 0 else 2
  {
    var t := TryPlace(jobs, id, column, prev, scope, validate);
    if !t.Exhausted? then
      assert !Stuck(jobs, id, prev, scope);
      if t.Placed? then Moved(t.jobs, Ok(t.job)) else Moved(jobs, Err(t.error))
    else if retry then Moved(jobs, Err(AlignmentFailed))
    else RetryAfterAlign(jobs, id, board, column, prev, scope, validate)
  }

  /** The exhausted first pass of `move`: realign the destination lane,
      then move again with `retry` set. A realignment that stops on a
      validation failure ends the move with that failure and the writes
      made so far. */
  function RetryAfterAlign(jobs: Collection, id: Id, board: Id, column: Id, prev: Option<Id>, scope: Query, validate: Record -> bool): (r: Moved)
    requires jobs.Valid()
    ensures r.result.Err? ==> r.result.error in {NotFound, ValidationFailed, AlignmentFailed}
    ensures r.result == Err(NotFound) ==> (prev.Some? && !HasId(jobs.rows, prev.value)) || !HasId(jobs.rows, id)
    ensures r.result.Err? ==> r.jobs == AlignSortOrder(jobs, board, column, validate).jobs
    ensures r.result.Ok? <==>
      && AlignSortOrder(jobs, board, column, validate).Aligned?
      && Placeable(AlignSortOrder(jobs, board, column, validate).jobs, id, column, prev, scope, validate)
    ensures r.result == Err(ValidationFailed) <==>
      || AlignSortOrder(jobs, board, column, validate).Halted?
      || Rejected(AlignSortOrder(jobs, board, column, validate).jobs, id, column, prev, scope, validate)
    ensures r.result == Err(AlignmentFailed) <==>
      AlignSortOrder(jobs, board, column, validate).Aligned? && Stuck(AlignSortOrder(jobs, board, column, validate).jobs, id, prev, scope)
    ensures r.result.Ok? ==> HasId(jobs.rows, id) && r.jobs.Valid()
    ensures r.result.Ok? ==> Landed(AlignSortOrder(jobs, board, column, validate).jobs, r.jobs, id, column, prev, scope)
    ensures r.result.Ok? ==> forall i :: 0 <= i < |r.jobs.rows| && r.jobs.rows[i].id == id ==>
      r.result.value == r.jobs.rows[i].rec - {"owner"}
    decreases 1
  {
    var a := AlignSortOrder(jobs, board, column, validate);
    AlignKeepsIds(jobs, board, column, validate);
    if a.Halted? then Moved(a.jobs, Err(ValidationFailed))
    else Move(a.jobs, id, board, column, prev, true, scope, validate)
  }

  /** Realigning a lane, to the end or not, neither adds nor removes jobs. */
  lemma AlignKeepsIds(jobs: Collection, board: Id, column: Id, validate: Record -> bool)
    requires jobs.Valid()
    ensures AlignSortOrder(jobs, board, column, validate).jobs.Valid()
    ensures forall id :: HasId(AlignSortOrder(jobs, board, column, validate).jobs.rows, id) <==> HasId(jobs.rows, id)
  {
    var a := AlignSortOrder(jobs, board, column, validate);
    var aligned := a.jobs;
    assert |aligned.rows| == |jobs.rows| && forall i :: 0 <= i < |jobs.rows| ==> aligned.rows[i].id == jobs.rows[i].id;
    forall id
      ensures HasId(aligned.rows, id) <==> HasId(jobs.rows, id)
    {
      if HasId(aligned.rows, id) {
        var i :| 0 <= i < |aligned.rows| && aligned.rows[i].id == id;
        assert jobs.rows[i].id == id;
      }
      if HasId(jobs.rows, id) {
        var i :| 0 <= i < |jobs.rows| && jobs.rows[i].id == id;
        assert aligned.rows[i].id == id;
      }
    }
  }

  /** What a successful attempt means in the store it leaves: with a
      non-negative lower bound, the moved job sits in `column` strictly
      above the previous job's sortOrder, and no other job, in any lane,
      has a sortOrder between the two. */
  lemma LandedAfterPrev(before: Collection, after: Collection, id: Id, column: Id, prev: Option<Id>, scope: Query)
    requires before.Valid() && Landed(before, after, id, column, prev, scope)
    requires 0 <= LowerBound(before, prev).value
    ensures var lo := LowerBound(before, prev).value;
      forall i :: 0 <= i < |after.rows| && after.rows[i].id == id ==>
        var n := Get(after.rows[i].rec, SortOrder);
        && n.Num? && lo < n.n
        && Get(after.rows[i].rec, BoardColumn) == Ref(column)
        && (forall x :: x in after.rows && x.id != id && Get(x.rec, SortOrder).Num? && Matches(scope, x) ==>
              !(lo < Get(x.rec, SortOrder).n <= n.n))
        && (prev.Some? && prev.value != id ==>
              forall y :: y in after.rows && y.id == prev.value ==> OrderOf(Get(y.rec, SortOrder)) == lo)
  {
    var lo := LowerBound(before, prev).value;
    var hi := UpperBound(before, id, lo, scope);
    var pos := Midpoint(lo, hi);
    OthersKept(before, after, id, column, pos);
    forall x | x in after.rows && x.id != id && Get(x.rec, SortOrder).Num? && Matches(scope, x)
      ensures !(lo < Get(x.rec, SortOrder).n <= pos)
    {
      assert x in before.rows;
    }
    forall i | 0 <= i < |after.rows| && after.rows[i].id == id
      ensures Get(after.rows[i].rec, SortOrder) == Num(pos)
    {
      assert before.rows[i].id == id;
    }
  }

  /** A move leaves every other job's row as it was. */
  lemma OthersKept(before: Collection, after: Collection, id: Id, column: Id, pos: int)
    requires MovedTo(before, after, id, column, pos)
    ensures forall x :: x in after.rows && x.id != id ==> x in before.rows
  {
    forall x | x in after.rows && x.id != id
      ensures x in before.rows
    {
      var k :| 0 <= k < |after.rows| && after.rows[k] == x;
      assert before.rows[k] == x;
    }
  }

  /** A move to a non-zero position leaves the job there, in `column`. */
  lemma MovedRow(before: Collection, after: Collection, id: Id, column: Id, pos: int)
    requires MovedTo(before, after, id, column, pos) && pos != 0
    ensures forall i :: 0 <= i < |after.rows| && after.rows[i].id == id ==>
      Get(after.rows[i].rec, SortOrder) == Num(pos) && Get(after.rows[i].rec, BoardColumn) == Ref(column)
  {
    forall i | 0 <= i < |after.rows| && after.rows[i].id == id
      ensures Get(after.rows[i].rec, SortOrder) == Num(pos)
    {
      assert before.rows[i].id == id;
    }
  }

  /** Two distinct multiples of 1000 are at least 1000 apart. */
  lemma SlotsApart(a: int, b: int)
    requires a % Spacing == 0 && b % Spacing == 0 && a < b
    ensures b - a >= Spacing
  {
    var p := a / Spacing;
    var q := b / Spacing;
    assert a == Spacing * p;
    assert b == Spacing * q;
  }

  lemma CanonicalSlot(k: nat)
    ensures Canonical(k) % Spacing == 0 && Canonical(k) > 0
  {
  }

  /** After a realignment, when the lane held every numbered job, every
      sortOrder in the store is a positive multiple of 1000. */
  lemma AlignedSlots(jobs: Collection, board: Id, column: Id, validate: Record -> bool)
    requires jobs.Valid()
    requires AlignSortOrder(jobs, board, column, validate).Aligned?
    requires forall x :: x in jobs.rows && Get(x.rec, SortOrder).Num? ==> InLane(x, Ref(board), Ref(column))
    ensures forall x :: x in AlignSortOrder(jobs, board, column, validate).jobs.rows && Get(x.rec, SortOrder).Num? ==>
      Get(x.rec, SortOrder).n % Spacing == 0 && Get(x.rec, SortOrder).n > 0
  {
    var aligned := AlignSortOrder(jobs, board, column, validate).jobs;
    AlignedLane(jobs, board, column, validate);
    forall x | x in aligned.rows && Get(x.rec, SortOrder).Num?
      ensures Get(x.rec, SortOrder).n % Spacing == 0 && Get(x.rec, SortOrder).n > 0
    {
      var i :| 0 <= i < |aligned.rows| && aligned.rows[i] == x;
      if !InLane(jobs.rows[i], Ref(board), Ref(column)) {
        assert false;
      }
    }
  }

  /** Realigning keeps every job in its lane and leaves each job of the
      lane on a positive multiple of 1000. */
  lemma AlignedLane(jobs: Collection, board: Id, column: Id, validate: Record -> bool)
    requires jobs.Valid()
    requires AlignSortOrder(jobs, board, column, validate).Aligned?
    ensures var aligned := AlignSortOrder(jobs, board, column, validate).jobs;
      forall i :: 0 <= i < |jobs.rows| ==>
        && (InLane(aligned.rows[i], Ref(board), Ref(column)) <==> InLane(jobs.rows[i], Ref(board), Ref(column)))
        && (InLane(jobs.rows[i], Ref(board), Ref(column)) ==>
              Get(aligned.rows[i].rec, SortOrder).Num?
              && Get(aligned.rows[i].rec, SortOrder).n % Spacing == 0
              && Get(aligned.rows[i].rec, SortOrder).n > 0)
  {
    var aligned := AlignSortOrder(jobs, board, column, validate).jobs;
    var lane := LaneSorted(jobs, board, column);
    LaneSortedFacts(jobs, board, column);
    forall i | 0 <= i < |jobs.rows| && InLane(jobs.rows[i], Ref(board), Ref(column))
      ensures InLane(aligned.rows[i], Ref(board), Ref(column))
      ensures Get(aligned.rows[i].rec, SortOrder).Num?
      ensures Get(aligned.rows[i].rec, SortOrder).n % Spacing == 0 && Get(aligned.rows[i].rec, SortOrder).n > 0
    {
      assert jobs.rows[i] in lane;
      var j :| 0 <= j < |lane| && lane[j] == jobs.rows[i];
      assert aligned.rows[i].rec == lane[j].rec[SortOrder := Num(Canonical(j))];
      CanonicalSlot(j);
    }
  }

  /** The retry finds room when the destination lane holds every numbered
      job and the previous job exists: realigning spaces all sortOrders
      1000 apart, so the retried move cannot fail with 'Sort order
      alignment failed'. */
  lemma RealignLeavesRoom(jobs: Collection, id: Id, board: Id, column: Id, prev: Option<Id>, scope: Query, validate: Record -> bool)
    requires jobs.Valid()
    requires AlignSortOrder(jobs, board, column, validate).Aligned?
    requires forall x :: x in jobs.rows && Get(x.rec, SortOrder).Num? ==> InLane(x, Ref(board), Ref(column))
    requires prev.None? || HasId(jobs.rows, prev.value)
    ensures !Stuck(AlignSortOrder(jobs, board, column, validate).jobs, id, prev, scope)
    ensures Move(jobs, id, board, column, prev, false, scope, validate).result != Err(AlignmentFailed)
  {
    var aligned := AlignSortOrder(jobs, board, column, validate).jobs;
    AlignedSlots(jobs, board, column, validate);
    AlignKeepsIds(jobs, board, column, validate);
    SlotLowerBound(aligned, prev);
    SpacedRoom(aligned, id, prev, scope);
  }

  /** When every sortOrder is a multiple of 1000, so is the lower bound. */
  lemma SlotLowerBound(jobs: Collection, prev: Option<Id>)
    requires jobs.Valid()
    requires forall x :: x in jobs.rows && Get(x.rec, SortOrder).Num? ==> Get(x.rec, SortOrder).n % Spacing == 0
    requires prev.None? || HasId(jobs.rows, prev.value)
    ensures LowerBound(jobs, prev).Ok? && LowerBound(jobs, prev).value % Spacing == 0
  {
    if prev.Some? {
      var i :| 0 <= i < |jobs.rows| && jobs.rows[i].id == prev.value;
      assert jobs.rows[i] in jobs.rows;
    }
  }

  /** The correction: with the neighbour search narrowed to the destination
      lane, a move after a job of that lane (or to its top) never fails
      with 'Sort order alignment failed', whatever the other lanes hold. */
  lemma LaneSearchLeavesRoom(jobs: Collection, id: Id, board: Id, column: Id, prev: Option<Id>, validate: Record -> bool)
    requires jobs.Valid()
    requires AlignSortOrder(jobs, board, column, validate).Aligned?
    requires prev.None? || exists x :: x in jobs.rows && x.id == prev.value && InLane(x, Ref(board), Ref(column))
    ensures !Stuck(AlignSortOrder(jobs, board, column, validate).jobs, id, prev, LaneScope(board, column))
    ensures Move(jobs, id, board, column, prev, false, LaneScope(board, column), validate).result != Err(AlignmentFailed)
  {
    var aligned := AlignSortOrder(jobs, board, column, validate).jobs;
    AlignedLane(jobs, board, column, validate);
    LaneMatches(Ref(board), Ref(column));
    if prev.Some? {
      var x :| x in jobs.rows && x.id == prev.value && InLane(x, Ref(board), Ref(column));
      var i :| 0 <= i < |jobs.rows| && jobs.rows[i] == x;
      assert aligned.rows[i] in aligned.rows;
    }
    SpacedRoom(aligned, id, prev, LaneScope(board, column));
  }

  /** In a store whose sortOrders within `scope` are positive multiples of
      1000, a move from a lower bound on such a multiple always has room. */
  lemma SpacedRoom(jobs: Collection, id: Id, prev: Option<Id>, scope: Query)
    requires jobs.Valid()
    requires forall x :: x in jobs.rows && Get(x.rec, SortOrder).Num? && Matches(scope, x) ==>
      Get(x.rec, SortOrder).n % Spacing == 0 && Get(x.rec, SortOrder).n > 0
    requires LowerBound(jobs, prev).Ok? && LowerBound(jobs, prev).value % Spacing == 0
    ensures !Stuck(jobs, id, prev, scope)
  {
    var lo := LowerBound(jobs, prev).value;
    var hi := UpperBound(jobs, id, lo, scope);
    if exists x :: x in jobs.rows && Above(x, id, lo, scope) {
      var x :| x in jobs.rows && Above(x, id, lo, scope) && Get(x.rec, SortOrder).n == hi;
    }
    SlotsApart(lo, hi);
  }
}

=== FILE: note_service.dfy ===
/** Notes attached to jobs (src/api/services/NoteService.ts). A note names
    its job, the job's owner and the job's board; `create` refuses a note
    whose owner or board disagrees with its job. */
module NoteService {
  import opened Wrappers
  import opened Values
  import opened Sorting
  import opened Crud

  const OwnerConflict := Http(500, "Note ownerId cannot be different to job owner")
  const BoardConflict := Http(500, "Note boardId cannot be different to job board")

  const CreatedAt := "createdAt"

  /** The job a note names, when its `jobId` is the id of a stored job. */
  function JobOf(jobs: Collection, note: Record): Option<Row> {
    var j := Get(note, "jobId");
    if j.Ref? then Lookup(jobs.rows, j.id) else None
  }

  /** The note agrees with its job: same owner and same board, both ObjectIDs. */
  predicate AgreesWith(note: Record, job: Row) {
    && Get(job.rec, "owner").Ref? && Get(job.rec, "owner") == Get(note, "ownerId")
    && Get(job.rec, "board").Ref? && Get(job.rec, "board") == Get(note, "boardId")
  }

  /** The note names a stored job it agrees with. */
  predicate Consistent(jobs: Collection, note: Record) {
    exists i :: 0 <= i < |jobs.rows| && Get(note, "jobId") == Ref(jobs.rows[i].id) && AgreesWith(note, jobs.rows[i])
  }

  /** `create(note)`: the owner check comes first, then the board check,
      then the generic create without an identifier. The returned note
      has no `ownerId`. */
  function CreateNote(notes: Collection, jobs: Collection, note: Record, validate: Record -> bool): (r: Result<(Collection, Row), Error>)
    requires jobs.Valid()
    ensures JobOf(jobs, note).None? ==> r == Err(TypeError)
    ensures r.Err? ==> r.error in {TypeError, OwnerConflict, BoardConflict, ValidationFailed}
    ensures JobOf(jobs, note).Some? ==>
      var job := JobOf(jobs, note).value;
      && (!Get(job.rec, "owner").Ref? ==> r == Err(TypeError))
      && (Get(job.rec, "owner").Ref? && Get(job.rec, "owner") != Get(note, "ownerId") ==> r == Err(OwnerConflict))
      && ((Get(job.rec, "owner").Ref? && Get(job.rec, "owner") == Get(note, "ownerId")
           && !Get(job.rec, "board").Ref?) ==> r == Err(TypeError))
      && ((Get(job.rec, "owner").Ref? && Get(job.rec, "owner") == Get(note, "ownerId")
           && Get(job.rec, "board").Ref? && Get(job.rec, "board") != Get(note, "boardId"))
          ==> r == Err(BoardConflict))
    ensures r.Ok? <==> Consistent(jobs, note) && validate(note)
    ensures Consistent(jobs, note) && !validate(note) ==> r == Err(ValidationFailed)
    ensures r.Ok? ==> r.value.0.rows == notes.rows + [Row(r.value.1.id, note)]
    ensures r.Ok? ==> r.value.1.rec == note - {"ownerId"} && "ownerId" !in r.value.1.rec
    ensures r.Ok? && notes.Valid() ==> r.value.0.Valid() && !HasId(notes.rows, r.value.1.id)
  {
    match JobOf(jobs, note)
    case None => Err(TypeError)
    case Some(job) =>
      var owner := Get(job.rec, "owner");
      var board := Get(job.rec, "board");
      JobOfFacts(jobs, note, job);
      if !owner.Ref? then Err(TypeError)
      else if owner != Get(note, "ownerId") then Err(OwnerConflict)
      else if !board.Ref? then Err(TypeError)
      else if board != Get(note, "boardId") then Err(BoardConflict)
      else
        match Create(notes, note, None, validate)
        case Err(e) => Err(e)
        case Ok(w) => Ok((w.0, Row(w.1.id, w.1.rec - {"ownerId"})))
  }

  /** The job found for a note is the only stored job it names. */
  lemma JobOfFacts(jobs: Collection, note: Record, job: Row)
    requires jobs.Valid() && JobOf(jobs, note) == Some(job)
    ensures Consistent(jobs, note) <==> AgreesWith(note, job)
  {
    if Consistent(jobs, note) {
      var i :| 0 <= i < |jobs.rows| && Get(note, "jobId") == Ref(jobs.rows[i].id) && AgreesWith(note, jobs.rows[i]);
      assert jobs.rows[i] == job;
    }
    if AgreesWith(note, job) {
      var i :| 0 <= i < |jobs.rows| && jobs.rows[i] == job;
    }
  }

  /** Every stored note agrees with the job it names. */
  predicate AllConsistent(notes: Collection, jobs: Collection) {
    forall x :: x in notes.rows ==> Consistent(jobs, x.rec)
  }

  /** `create` keeps every stored note consistent with its job. */
  lemma CreateKeepsConsistent(notes: Collection, jobs: Collection, note: Record, validate: Record -> bool)
    requires jobs.Valid() && AllConsistent(notes, jobs)
    requires CreateNote(notes, jobs, note, validate).Ok?
    ensures AllConsistent(CreateNote(notes, jobs, note, validate).value.0, jobs)
  {
    var after := CreateNote(notes, jobs, note, validate).value.0;
    forall x | x in after.rows
      ensures Consistent(jobs, x.rec)
    {
      assert x in notes.rows || x.rec == note;
    }
  }

  /** The notes whose `field` holds the ObjectID `id`, newest first. */
  function NotesBy(notes: Collection, field: string, id: Id): (r: seq<Row>)
    ensures forall x :: x in r <==> x in notes.rows && Get(x.rec, field) == Ref(id)
    ensures SortedBy(r, CreatedAt, false)
    ensures notes.Valid() ==> DistinctIds(r)
  {
    var q := [Eq(field, Ref(id))];
    assert forall x :: Matches(q, x) <==> Get(x.rec, field) == Ref(id) by {
      forall x ensures Matches(q, x) <==> Get(x.rec, field) == Ref(id) {
        assert Holds(q[0], x) <==> Get(x.rec, field) == Ref(id);
      }
    }
    Find(notes, q, By(CreatedAt, false), None)
  }

  /** `findByJob(jobId)`: exactly the notes of the job, newest first. */
  function FindByJob(notes: Collection, jobId: Id): (r: seq<Row>)
    ensures forall x :: x in r <==> x in notes.rows && Get(x.rec, "jobId") == Ref(jobId)
    ensures forall i, j :: 0 <= i < j < |r| ==> ValueLe(Get(r[j].rec, CreatedAt), Get(r[i].rec, CreatedAt))
    ensures notes.Valid() ==> DistinctIds(r)
  {
    NotesBy(notes, "jobId", jobId)
  }

  /** `findByBoard(boardId)`: exactly the notes of the board, newest first. */
  function FindByBoard(notes: Collection, boardId: Id): (r: seq<Row>)
    ensures forall x :: x in r <==> x in notes.rows && Get(x.rec, "boardId") == Ref(boardId)
    ensures forall i, j :: 0 <= i < j < |r| ==> ValueLe(Get(r[j].rec, CreatedAt), Get(r[i].rec, CreatedAt))
    ensures notes.Valid() ==> DistinctIds(r)
  {
    NotesBy(notes, "boardId", boardId)
  }

  /** A listing of distinct rows with distinct ids has no repeated row. */
  lemma DistinctRows(s: seq<Row>)
    requires DistinctIds(s)
    ensures forall i, j :: 0 <= i < j < |s| ==> s[i] != s[j]
  {
  }

  /** When no two of a job's notes share a creation time, `findByJob` is
      the one newest-first listing of them. */
  lemma FindByJobUnique(notes: Collection, jobId: Id, listing: seq<Row>)
    requires notes.Valid()
    requires forall x :: x in listing <==> x in notes.rows && Get(x.rec, "jobId") == Ref(jobId)
    requires StrictlySortedBy(listing, CreatedAt, false)
    ensures FindByJob(notes, jobId) == listing
  {
    var found := NotesBy(notes, "jobId", jobId);
    DistinctRows(found);
    SortedUnique(found, listing, CreatedAt, false);
  }

  /** The same for `findByBoard`. */
  lemma FindByBoardUnique(notes: Collection, boardId: Id, listing: seq<Row>)
    requires notes.Valid()
    requires forall x :: x in listing <==> x in notes.rows && Get(x.rec, "boardId") == Ref(boardId)
    requires StrictlySortedBy(listing, CreatedAt, false)
    ensures FindByBoard(notes, boardId) == listing
  {
    var found := NotesBy(notes, "boardId", boardId);
    DistinctRows(found);
    SortedUnique(found, listing, CreatedAt, false);
  }
}

=== FILE: sorting.dfy ===
/** Ordering of query results (`order: { field: 'ASC' | 'DESC' }`). The
    store's sort is modelled as a stable insertion sort: rows whose keys
    compare equal keep their store order. */
module Sorting {
  import opened Values

  /** `a` may be listed before `b` when ordering by `field`. */
  predicate Before(a: Row, b: Row, field: string, asc: bool) {
    if asc then ValueLe(Get(a.rec, field), Get(b.rec, field))
    else ValueLe(Get(b.rec, field), Get(a.rec, field))
  }

  lemma BeforeTotal(a: Row, b: Row, field: string, asc: bool)
    ensures Before(a, b, field, asc) || Before(b, a, field, asc)
  {
    ValueLeTotal(Get(a.rec, field), Get(b.rec, field));
  }

  lemma BeforeTrans(a: Row, b: Row, c: Row, field: string, asc: bool)
    requires Before(a, b, field, asc) && Before(b, c, field, asc)
    ensures Before(a, c, field, asc)
  {
    if asc {
      ValueLeTrans(Get(a.rec, field), Get(b.rec, field), Get(c.rec, field));
    } else {
      ValueLeTrans(Get(c.rec, field), Get(b.rec, field), Get(a.rec, field));
    }
  }

  lemma BeforeRefl(a: Row, field: string, asc: bool)
    ensures Before(a, a, field, asc)
  {
    ValueLeRefl(Get(a.rec, field));
  }

  predicate SortedBy(s: seq<Row>, field: string, asc: bool) {
    forall i, j :: 0 <= i < j < |s| ==> Before(s[i], s[j], field, asc)
  }

  /** No two rows share an id. */
  predicate DistinctIds(s: seq<Row>) {
    forall i, j :: 0 <= i < j < |s| ==> s[i].id != s[j].id
  }

  /** Strictly ordered: no row may come before a row listed earlier. */
  predicate StrictlySortedBy(s: seq<Row>, field: string, asc: bool) {
    forall i, j :: 0 <= i < j < |s| ==> !Before(s[j], s[i], field, asc)
  }

  lemma BeforeAll(x: Row, s: seq<Row>, field: string, asc: bool)
    requires SortedBy(s, field, asc)
    requires s != [] && Before(x, s[0], field, asc)
    ensures forall j :: 0 <= j < |s| ==> Before(x, s[j], field, asc)
  {
    forall j | 0 <= j < |s|
      ensures Before(x, s[j], field, asc)
    {
      if j > 0 {
        BeforeTrans(x, s[0], s[j], field, asc);
      }
    }
  }

  /** Inserts `x` before the first row it may precede. */
  function Insert(x: Row, s: seq<Row>, field: string, asc: bool): (r: seq<Row>)
    requires SortedBy(s, field, asc)
    ensures SortedBy(r, field, asc)
    ensures multiset(r) == multiset(s) + multiset{x}
    ensures DistinctIds(s) && (forall y :: y in s ==> y.id != x.id) ==> DistinctIds(r)
    decreases |s|
  {
    if s == [] then [x]
    else if Before(x, s[0], field, asc) then
      BeforeAll(x, s, field, asc);
      [x] + s
    else
      var rest := Insert(x, s[1..], field, asc);
      InsertBehind(x, s, rest, field, asc);
      [s[0]] + rest
  }

  /** The step of Insert that keeps the head of `s` in front. */
  lemma InsertBehind(x: Row, s: seq<Row>, rest: seq<Row>, field: string, asc: bool)
    requires SortedBy(s, field, asc) && s != []
    requires !Before(x, s[0], field, asc)
    requires SortedBy(rest, field, asc)
    requires multiset(rest) == multiset(s[1..]) + multiset{x}
    requires DistinctIds(s[1..]) && (forall y :: y in s[1..] ==> y.id != x.id) ==> DistinctIds(rest)
    ensures SortedBy([s[0]] + rest, field, asc)
    ensures multiset([s[0]] + rest) == multiset(s) + multiset{x}
    ensures DistinctIds(s) && (forall y :: y in s ==> y.id != x.id) ==> DistinctIds([s[0]] + rest)
  {
    assert s == [s[0]] + s[1..];
    MembersOfRest(x, s, rest);
    BeforeTotal(x, s[0], field, asc);
    ConsSorted(s[0], rest, field, asc);
    if DistinctIds(s) && (forall y :: y in s ==> y.id != x.id) {
      assert DistinctIds(s[1..]);
      forall y | y in rest
        ensures y.id != s[0].id
      {
        if y != x {
          var k :| 0 <= k < |s[1..]| && s[1..][k] == y;
          assert s[k + 1] == y;
        }
      }
      ConsDistinct(s[0], rest);
    }
  }

  lemma MembersOfRest(x: Row, s: seq<Row>, rest: seq<Row>)
    requires s != [] && multiset(rest) == multiset(s[1..]) + multiset{x}
    ensures forall y :: y in rest ==> y == x || y in s[1..]
  {
    forall y | y in rest
      ensures y == x || y in s[1..]
    {
      assert y in multiset(rest);
    }
  }

  lemma ConsSorted(h: Row, rest: seq<Row>, field: string, asc: bool)
    requires SortedBy(rest, field, asc)
    requires forall y :: y in rest ==> Before(h, y, field, asc)
    ensures SortedBy([h] + rest, field, asc)
  {
    var r := [h] + rest;
    forall i, j | 0 <= i < j < |r|
      ensures Before(r[i], r[j], field, asc)
    {
      if i > 0 {
        assert r[i] == rest[i - 1] && r[j] == rest[j - 1];
      } else {
        assert r[j] in rest;
      }
    }
  }

  lemma ConsDistinct(h: Row, rest: seq<Row>)
    requires DistinctIds(rest)
    requires forall y :: y in rest ==> y.id != h.id
    ensures DistinctIds([h] + rest)
  {
    var r := [h] + rest;
    forall i, j | 0 <= i < j < |r|
      ensures r[i].id != r[j].id
    {
      if i > 0 {
        assert r[i] == rest[i - 1] && r[j] == rest[j - 1];
      } else {
        assert r[j] in rest;
      }
    }
  }

  /** A non-empty listing holds its first row. */
  lemma HeadIn(s: seq<Row>)
    requires s != []
    ensures s[0] in s
  {
  }

  /** Orders `s` by `field`, keeping the original order of ties. */
  function Sort(s: seq<Row>, field: string, asc: bool): (r: seq<Row>)
    ensures SortedBy(r, field, asc)
    ensures multiset(r) == multiset(s)
    ensures DistinctIds(s) ==> DistinctIds(r)
    decreases |s|
  {
    if s == [] then []
    else
      var rest := Sort(s[1..], field, asc);
      SortStep(s, rest);
      Insert(s[0], rest, field, asc)
  }

  lemma SortStep(s: seq<Row>, rest: seq<Row>)
    requires s != [] && multiset(rest) == multiset(s[1..])
    requires DistinctIds(s[1..]) ==> DistinctIds(rest)
    ensures multiset(s) == multiset(rest) + multiset{s[0]}
    ensures DistinctIds(s) ==> DistinctIds(rest) && forall y :: y in rest ==> y.id != s[0].id
  {
    assert s == [s[0]] + s[1..];
    if DistinctIds(s) {
      assert DistinctIds(s[1..]);
      forall y | y in rest
        ensures y.id != s[0].id
      {
        assert y in multiset(rest);
        var k :| 0 <= k < |s[1..]| && s[1..][k] == y;
        assert s[k + 1] == y;
      }
    }
  }

  /** A sorted listing is determined by its rows when the keys of one of
      the two listings are strictly ordered. */
  lemma {:induction false} SortedUnique(a: seq<Row>, b: seq<Row>, field: string, asc: bool)
    requires SortedBy(a, field, asc) && StrictlySortedBy(b, field, asc)
    requires forall i, j :: 0 <= i < j < |a| ==> a[i] != a[j]
    requires forall x :: x in a <==> x in b
    ensures a == b
    decreases |a|
  {
    if a == [] {
      if b != [] {
        HeadIn(b);
        assert false;
      }
    } else if b == [] {
      HeadIn(a);
      assert false;
    } else {
      assert a[0] in b;
      assert b[0] in a;
      var j :| 0 <= j < |b| && b[j] == a[0];
      var i :| 0 <= i < |a| && a[i] == b[0];
      BeforeRefl(a[0], field, asc);
      assert Before(b[j], b[0], field, asc);
      assert j == 0;
      forall x
        ensures x in a[1..] <==> x in b[1..]
      {
        if x in a[1..] {
          var k :| 1 <= k < |a| && a[k] == x;
          assert x != b[0];
          assert x in b;
        }
        if x in b[1..] {
          var k :| 1 <= k < |b| && b[k] == x;
          BeforeRefl(b[k], field, asc);
          assert x != a[0];
          assert x in a;
        }
      }
      SortedUnique(a[1..], b[1..], field, asc);
      assert a == [a[0]] + a[1..];
      assert b == [b[0]] + b[1..];
    }
  }
}

=== FILE: values.dfy ===
/** Documents as the services see them: a record maps field names to
    JavaScript values, and a stored row pairs a record with its ObjectID. */
module Values {

  /** An ObjectID. Only equality and the comparison order matter here. */
  type Id = nat

  /** The JavaScript values that occur in stored documents. Numbers are
      unbounded integers. */
  datatype Value =
    | Undefined
    | Null
    | Bool(b: bool)
    | Num(n: int)
    | Str(s: string)
    | Ref(id: Id)

  /** JavaScript truthiness (`!!v`). */
  predicate Truthy(v: Value) {
    match v
    case Undefined => false
    case Null => false
    case Bool(b) => b
    case Num(n) => n != 0
    case Str(s) => s != ""
    case Ref(_) => true
  }

  type Record = map<string, Value>

  /** Property access: a missing field reads as `undefined`. */
  function Get(r: Record, field: string): Value {
    if field in r then r[field] else Undefined
  }

  datatype Row = Row(id: Id, rec: Record)

  /** The errors the services raise. */
  datatype Error =
    | Http(status: int, message: string)  // an ErrorHandler(status, message)
    | ValidationFailed                     // the array thrown after a failed validate()
    | TypeError                            // a property read or method call on a missing value

  const NotFound := Http(404, "Not found")

  /** Rank of a value's type in the store's sort order: missing and null
      first, then numbers, strings, ObjectIDs and booleans. */
  function TypeRank(v: Value): nat {
    match v
    case Undefined => 0
    case Null => 0
    case Num(_) => 1
    case Str(_) => 2
    case Ref(_) => 3
    case Bool(_) => 4
  }

  /** Lexicographic order of strings by character code. */
  predicate StrLe(a: string, b: string)
    decreases |a|
  {
    a == [] || (b != [] && (a[0] < b[0] || (a[0] == b[0] && StrLe(a[1..], b[1..]))))
  }

  /** The order in which the store sorts values of one field. */
  predicate ValueLe(a: Value, b: Value) {
    if TypeRank(a) != TypeRank(b) then TypeRank(a) < TypeRank(b)
    else match (a, b)
      case (Num(x), Num(y)) => x <= y
      case (Str(x), Str(y)) => StrLe(x, y)
      case (Ref(x), Ref(y)) => x <= y
      case (Bool(x), Bool(y)) => !x || y
      case _ => true
  }

  lemma {:induction false} StrLeTotal(a: string, b: string)
    ensures StrLe(a, b) || StrLe(b, a)
    decreases |a|
  {
    if a != [] && b != [] && a[0] == b[0] {
      StrLeTotal(a[1..], b[1..]);
    }
  }

  lemma {:induction false} StrLeTrans(a: string, b: string, c: string)
    requires StrLe(a, b) && StrLe(b, c)
    ensures StrLe(a, c)
    decreases |a|
  {
    if a != [] && a[0] == b[0] && b[0] == c[0] {
      StrLeTrans(a[1..], b[1..], c[1..]);
    }
  }

  lemma ValueLeTotal(a: Value, b: Value)
    ensures ValueLe(a, b) || ValueLe(b, a)
  {
    if a.Str? && b.Str? {
      StrLeTotal(a.s, b.s);
    }
  }

  lemma ValueLeTrans(a: Value, b: Value, c: Value)
    requires ValueLe(a, b) && ValueLe(b, c)
    ensures ValueLe(a, c)
  {
    if a.Str? && b.Str? && c.Str? {
      StrLeTrans(a.s, b.s, c.s);
    }
  }

  lemma ValueLeRefl(a: Value)
    ensures ValueLe(a, a)
  {
    if a.Str? {
      StrLeTotal(a.s, a.s);
    }
  }
}

=== FILE: wrappers.dfy ===
/** Optional values and results, standing in for JavaScript's `undefined`
    and for the errors the services throw. Both work with `:-`. */
module Wrappers {

  datatype Option<+T> = None | Some(value: T)

  datatype Result<+T, +E> = Ok(value: T) | Err(error: E) {

    predicate IsFailure() {
      Err?
    }

    function PropagateFailure<U>(): Result<U, E>
      requires Err?
    {
      Err(error)
    }

    function Extract(): T
      requires Ok?
    {
      value
    }
  }
}
